=== FILE: README.md ===
# TrafficIncidentBot, modelled in Dafny

TrafficIncidentBot watches the California Highway Patrol incident page for one
communications centre. It builds a record from the first incident row and the
incident's detail page, with coordinates, detail lines and the neighbourhood, and
skips "Media Log" rows. It renders a Mapbox map of the spot, in the night style
after 19:00. It asks a language model for a one-line summary and posts it to Discord.
Every posted record is appended to `previous_data.json`. A Tk dashboard reads that
file back and shows statistics:
- the total;
- incidents per hour;
- the most frequent location;
- the latest incident time.

There are two revisions of the dashboard.

This project models the deterministic core of that system and proves properties
of the model:

| file | module | models |
|---|---|---|
| `wrappers.dfy` | `Wrappers` | Python's `None`-or-value as `Option` |
| `strings.dfy` | `Strings` | digits and numerals, `str.strip`, `in` on strings, Python's string order |
| `records.dfy` | `Records` | a record as a map from field names to values; Python truthiness; f-string rendering; the record file |
| `time_parse.dfy` | `TimeParse` | `parse_incident_time`: the two `strptime` formats |
| `stats.dfy` | `Stats` | `defaultdict(int)` counters in insertion order, `max(..., key=..., default=...)`, the analytics snapshot |
| `dashboard.dfy` | `Dashboard` | tempCodeRunnerFile.py: the analytics fold, the terminal redirector |
| `panel.dfy` | `Panel` | gui.py: the other analytics fold, the per-hour text, and how the two revisions compare |
| `scraper.dfy` | `Scraper` | traffic_scraper.py once the HTML is reduced to strings |
| `map_generator.dfy` | `MapGenerator` | map_generator.py: the Mapbox URL, the sunset test, the style choice |
| `monitor.dfy` | `Monitor` | main.py: the record file, the incident identity, the monitor loop |

**State.**
- The analytics global of each dashboard revision is a class (`Analytics`). Its methods fold the records into it with a loop.
- The monitor loop's sets and list are fields of `Monitor.Monitor`. Its `Step` method performs one turn of the `while True` body.
- The record file is `Monitor.RecordFile`.
- Each method is proved equal to a pure function (`Process`, `Fold`, `Refresh`, `Cycle`, `Run`). The properties are lemmas about those functions.

**Collaborators.** The scraper's two HTTP requests, the geocoder, the map download, the summariser, the Discord post and the file write are not modelled as code. Each becomes a value supplied per turn: it either succeeded, with its result, or raised. The clock in `is_after_sunset` becomes a `Clock` parameter.

## Model

| member | source | states |
|---|---|---|
| TimeParse.ParseIncidentTime | tempCodeRunnerFile.py:29-37 | The full format is tried first and wins whenever it parses; otherwise the result is the clock-only format's; a parsed hour is always below 24 |
| TimeParse.ParseFull | tempCodeRunnerFile.py:30-33 | `%Y-%m-%d %H:%M:%S` only accepts a date and time `datetime` accepts (month, day for the month and leap year, hour, minute, second in range) |
| TimeParse.DayField | tempCodeRunnerFile.py:30-33 | `%d` reads one or two digits, or a space followed by a digit from 1 to 9, as the day |
| TimeParse.SpacedDayRoundTrip | tempCodeRunnerFile.py:29-37 | A valid stamp whose day below 10 is padded with a space instead of a zero parses back to itself, both alone and through `parse_incident_time` |
| TimeParse.ParseClock12 | tempCodeRunnerFile.py:30-33 | `%I:%M %p` yields a valid stamp on 1900-01-01 with second 0 |
| TimeParse.Hour24 | tempCodeRunnerFile.py:46 | 12 AM is hour 0, 12 PM is hour 12, other PM hours add 12; the hour is below 24 |
| TimeParse.HourOf | tempCodeRunnerFile.py:46 | The hour of a parseable time is below 24 |
| TimeParse.FullRoundTrip | tempCodeRunnerFile.py:30-33 | A valid stamp written as `YYYY-MM-DD HH:MM:SS` parses back to itself, both alone and through `parse_incident_time` |
| TimeParse.Clock12RoundTrip | tempCodeRunnerFile.py:30-33 | A time written as `HH:MM AM/PM` parses back to that hour and minute on 1900-01-01 |
| TimeParse.FieldOfPad | tempCodeRunnerFile.py:30 | A zero-padded field of width w reads back as its number |
| Strings.NatToStringValue | map_generator.py:13 | The decimal numeral of n reads back as n |
| Strings.LexLessTotal | tempCodeRunnerFile.py:48 | Python's string order is total: distinct strings are ordered one way or the other |
| Strings.LexLessTransitive | tempCodeRunnerFile.py:48 | Python's string order is transitive |
| Strings.Strip | traffic_scraper.py:43 | The stripped text is a slice of the input with no whitespace at either end |
| Stats.Increment | tempCodeRunnerFile.py:47 | `counter[k] += 1` adds one to k, leaves every other count alone, and appends a new key at the end of the iteration order |
| Stats.IncrementTotal | tempCodeRunnerFile.py:47 | One increment adds exactly one to the sum of the counts |
| Stats.MostFrequent | tempCodeRunnerFile.py:148 | No key when the counter is empty; otherwise a key whose count no other key exceeds |
| Stats.Best | tempCodeRunnerFile.py:148 | The first key in iteration order whose count is maximal |
| Stats.MostFrequentLabel | tempCodeRunnerFile.py:148 | `"N/A"` for an empty counter, otherwise a most frequent location |
| Stats.LastTimeLabel | tempCodeRunnerFile.py:144 | The time when it is truthy, `"N/A"` otherwise; what it shows for stored records is stated by `Dashboard.LastLabelShown` and `Panel.LabelsAgree` |
| Dashboard.LastLabelShown | tempCodeRunnerFile.py:144 | After a refresh the label is `"N/A"` exactly when no stored time parses, and otherwise the greatest parseable stored time |
| Dashboard.NotApplicableUnparsed | tempCodeRunnerFile.py:29-37 | `"N/A"` parses in neither format, so the label cannot be mistaken for a stored time |
| Panel.LabelsAgree | gui.py:117 | Both revisions show the same last-incident label for every stored list of records |
| Stats.Reset | tempCodeRunnerFile.py:58-64 | A reset snapshot: the given total, empty counters, no last time |
| Dashboard.Fold | tempCodeRunnerFile.py:80-81 | Processing the records one by one keeps the snapshot well formed and the total unchanged; the counts it builds are stated by `Dashboard.PerHourCounts`, `Dashboard.LocationCounts` and `Dashboard.LastIsLexMax` |
| Dashboard.Process | tempCodeRunnerFile.py:39-52 | Processing one record keeps the snapshot well formed and the total unchanged |
| Dashboard.Analytics.ProcessIncident | tempCodeRunnerFile.py:39-52 | The analytics global becomes `Process` of its old value and the record |
| Dashboard.Analytics.UpdateFromFile | tempCodeRunnerFile.py:54-85 | The loop over the stored records leaves the global equal to `Refresh` of its old value and the file |
| Dashboard.Refresh | tempCodeRunnerFile.py:54-85 | Refreshing keeps the snapshot well formed; a missing file resets it to zero records, and text that does not decode leaves it exactly as it was |
| Dashboard.TotalIsRecordCount | tempCodeRunnerFile.py:73 | After a refresh the total is the number of stored records |
| Dashboard.StampedCount | tempCodeRunnerFile.py:43-47 | At most as many records have a parseable time as there are records |
| Dashboard.HourSumIsStampedCount | tempCodeRunnerFile.py:43-47 | The per-hour counts add up to the number of records with a non-empty, parseable time |
| Dashboard.HoursInRange | tempCodeRunnerFile.py:46-47 | Every counted hour is below 24 |
| Dashboard.PerHourCounts | tempCodeRunnerFile.py:43-47 | Each hour's count grows by the number of records whose time parses to that hour |
| Dashboard.LocationCounts | tempCodeRunnerFile.py:51-52 | Each location's count grows by the number of records naming it, whether or not their time parsed |
| Dashboard.KeepMax | tempCodeRunnerFile.py:48-49 | The update `if not last or t > last` keeps the greatest time seen so far |
| Dashboard.LastIsLexMax | tempCodeRunnerFile.py:48-49 | After a reset and fold, the last time is `None` exactly when no time parses, and otherwise the greatest parseable time in string order |
| Dashboard.LexMaxUnique | tempCodeRunnerFile.py:48-49 | The greatest time of a set is unique |
| Dashboard.LastIgnoresOrder | tempCodeRunnerFile.py:48-49 | The last time depends only on which times occur, not on the order of the records |
| Dashboard.StampedTimesSnoc | tempCodeRunnerFile.py:43-49 | Appending a record adds its time to the parseable times exactly when it parses |
| Dashboard.MissingFileResets | tempCodeRunnerFile.py:56-64 | A missing file resets every counter, the total and the last time |
| Dashboard.RefreshIdempotent | tempCodeRunnerFile.py:72-81 | A refresh from a readable or missing file does not depend on the previous snapshot, and repeating it changes nothing |
| Dashboard.TextRedirector.constructor | tempCodeRunnerFile.py:217-220 | A new redirector has an empty buffer and keeps its widget |
| Dashboard.TextRedirector.Write | tempCodeRunnerFile.py:222-223 | `write` appends the message to the buffer |
| Dashboard.TextRedirector.Flush | tempCodeRunnerFile.py:225-226 | `flush` changes nothing: it has no `modifies` clause, and the buffer is as before |
| Dashboard.UpdateTerminal | tempCodeRunnerFile.py:228-235 | The whole buffer is appended to the terminal pane and the buffer is left empty |
| Panel.Fold | gui.py:43-63 | The loop over the records keeps the snapshot well formed and the total unchanged; its counts are stated by `Panel.PerHourCounts`, `Panel.LocationCounts` and `Panel.LastIsLexMax` |
| Panel.Step | gui.py:43-63 | One pass of the loop body keeps the snapshot well formed and the total unchanged |
| Panel.Analytics.UpdateFromFile | gui.py:25-68 | The loop with `continue` leaves the global equal to `Refresh` of its old value and the file |
| Panel.Refresh | gui.py:25-40 | Refreshing keeps the snapshot well formed; a missing or undecodable file leaves it exactly as it was |
| Panel.TotalIsRecordCount | gui.py:35 | After a refresh the total is `len(data)` |
| Panel.BadTimeSkipped | gui.py:47-55 | A record with a non-empty time that neither format parses changes nothing: no hour, no location, no last time |
| Panel.MissingFileKeeps | gui.py:29 | A missing file, or one whose text does not decode, leaves the statistics as they were |
| Panel.PerHourAgrees | gui.py:44-57 | The two revisions build the same per-hour counter, insertion order included |
| Panel.PerHourCounts | gui.py:56-57 | Each hour's count grows by the number of records whose time parses to that hour |
| Panel.LocationCounts | gui.py:59-60 | A location is counted once per record that names it and is not skipped |
| Panel.LocationsAgreeWithoutBadTimes | gui.py:59-60 | Without unparseable times, the two revisions build the same location counter |
| Panel.LocationsDifferOnBadTime | gui.py:47-60 | On `{"Time": "soon", "Location": "Main St"}` tempCodeRunnerFile.py counts the location once and gui.py not at all |
| Panel.LastIsLexMax | gui.py:61-63 | The last time is falsy when no time parses, and otherwise the greatest parseable time in string order |
| Panel.LastAgrees | gui.py:61-63 | When some time parses, both revisions report the same last time |
| Panel.ClearResets | gui.py:33-40 | A file holding `[]` resets the statistics in both revisions |
| Panel.PerHourText | gui.py:124 | The per-hour text is `"None"` exactly when no hour was counted |
| Panel.JoinHours | gui.py:124 | A non-empty join starts with an hour's digit |
| Panel.Entry | gui.py:124 | One entry `hour: count` starts with the hour's digits |
| Panel.JoinHoursSnoc | gui.py:124 | One more hour appends `", "` (when there were hours before) and its `hour: count` entry, so the entries appear in insertion order |
| Panel.JoinHoursFrame | gui.py:124 | The text depends only on the counts of the listed hours |
| Panel.PerHourTextNewHour | gui.py:124 | The first accident in a new hour appends `h: 1` to the text, after `", "` unless it is the first hour |
| Scraper.ScrapeTable | traffic_scraper.py:29-31 | `None` (Media Log) exactly when the cell under the first "Location" header is "Media Log"; an `IndexError` exactly when that cell is missing; otherwise the zipped row |
| Scraper.ZipUpTo | traffic_scraper.py:31 | The keys are exactly the paired headers |
| Scraper.ZipFields | traffic_scraper.py:31 | Pairing stops at the shorter list, and a repeated header maps to the cell of its last paired occurrence |
| Scraper.IndexOf | traffic_scraper.py:29 | `headers.index(x)` is the first index holding x |
| Scraper.ViewstateIndex | traffic_scraper.py:34 | The leftmost position where the pattern matches: it matches there and nowhere before; past the end when it matches nowhere |
| Scraper.SearchViewstate | traffic_scraper.py:34 | The result is the value matched at the leftmost matching position; `None` when no position matches |
| Scraper.GetViewstate | traffic_scraper.py:33-35 | The value of the first hidden `__VIEWSTATE` input of the page, or `None` when there is none |
| Scraper.ViewstateAt | traffic_scraper.py:15 | A captured value is non-empty and has no double quote |
| Scraper.JoinedMatches | traffic_scraper.py:15 | Literals written with single spaces between them match the literal-and-`\s+` part of the pattern, whatever text follows |
| Scraper.ViewstateRoundTrip | traffic_scraper.py:15 | A page starting with the hidden input as ASP.NET writes it yields exactly its value |
| Scraper.DecimalShape | traffic_scraper.py:16 | What the `\d+\.\d+` part of the pattern reads is digits, one dot, and digits |
| Scraper.LatLonAt | traffic_scraper.py:16 | A match ends after where it starts; the matched text is the latitude, a space and the longitude; the latitude is `\d+\.\d+` and the longitude is a minus sign before `\d+\.\d+` |
| Scraper.FindLatLons | traffic_scraper.py:38 | `findall` finds at most one pair per character scanned, and a match at the scan position is the first pair found |
| Scraper.FindLatLonsShape | traffic_scraper.py:38 | Every pair `findall` returns has that matched shape |
| Scraper.AfterLastDot | traffic_scraper.py:48-49 | What `split('.')[-1]` keeps is no longer than the text and holds no dot |
| Scraper.Precise | traffic_scraper.py:49 | A predicate with no contract of its own: both parts have exactly six characters after their last dot; `FirstPreciseIndex` and `FirstPrecise` state what it selects |
| Scraper.FirstPreciseIndex | traffic_scraper.py:47-49 | The first index whose pair has six fractional digits in both parts; no earlier pair has |
| Scraper.FirstPrecise | traffic_scraper.py:47-54 | `None` exactly when no pair has six fractional digits in both parts |
| Scraper.FirstPreciseIsFirst | traffic_scraper.py:47-54 | The pair returned is the one at the first qualifying index |
| Scraper.StripBrackets | traffic_scraper.py:17 | The substitution never lengthens the text; what it keeps and removes is stated by the lemmas below |
| Scraper.StripBracketsKeepsPlain | traffic_scraper.py:17 | Text before the first `[` is kept unchanged |
| Scraper.StripBracketsDropsSegment | traffic_scraper.py:17 | A `[` followed by text without `]` or newline and then `]` is removed up to that first `]` (the shortest match), and the rest is processed on |
| Scraper.StripBracketsKeepsUnclosed | traffic_scraper.py:17 | A `[` that no `]` closes before a newline is kept |
| Scraper.ClosesAfterBody | traffic_scraper.py:17 | The lazy `.*?` stops at the first `]`: a body without `]` or newline closes right after itself |
| Scraper.StripBracketsComplete | traffic_scraper.py:17 | After the substitution no `[...]` segment without a newline is left |
| Scraper.StripBracketsFixed | traffic_scraper.py:17 | Text without such a segment is left as it is |
| Scraper.StripBracketsIdempotent | traffic_scraper.py:17 | Removing bracket segments twice is removing them once |
| Scraper.CleanDetailDropsSegment | traffic_scraper.py:43 | A detail cleans to the text before its first segment followed by the cleaned text after it, stripped of whitespace |
| Scraper.CleanDetail | traffic_scraper.py:43 | A cleaned detail has no bracket segment and no surrounding whitespace |
| Scraper.CleanDetails | traffic_scraper.py:41-46 | Every kept detail is clean and mentions no excluded phrase |
| Scraper.Excluded | traffic_scraper.py:44 | A predicate with no contract of its own: the cleaned text contains one of the three phrases of `EXCLUDED_DETAILS` (line 19); `CleanDetailsMembers` states what it filters out |
| Scraper.CleanDetailsMembers | traffic_scraper.py:44-45 | A detail is kept exactly when it is some cell's cleaned text and mentions none of the three excluded phrases |
| Scraper.CleanDetailsAppend | traffic_scraper.py:42-46 | The filter keeps source order: the details of two runs of cells are the details of each, in turn |
| Scraper.TrafficInfoOf | traffic_scraper.py:37-55 | `None` exactly when no pair qualifies; otherwise the first qualifying pair in match order, with all the kept details |
| Scraper.ExtractTrafficInfo | traffic_scraper.py:37-55 | The append loop and the scan with early return compute `TrafficInfoOf` |
| Scraper.InfoRecord | traffic_scraper.py:50-54 | The coordinate record has exactly the keys Latitude, Longitude and Details |
| Scraper.GetOrNA | traffic_scraper.py:89-90 | `dict.get(key, "N/A")`: the stored value when the key is present, and "N/A" otherwise |
| Scraper.GetCoordinates | traffic_scraper.py:65-94 | `None` when either request fails or no viewstate is found; a record has Latitude, Longitude and Details and no keys beyond those and Neighborhood and City |
| Scraper.GetMergedData | traffic_scraper.py:96-106 | `None` for a Media Log row or missing coordinates; the merged keys are the row's without "Area" plus the coordinates'; coordinate fields win |
| Scraper.MergedHasNoArea | traffic_scraper.py:101-105 | A merged record has no "Area" key |
| MapGenerator.Style | map_generator.py:12 | The night style exactly when dark mode is on, the day style exactly when it is off |
| MapGenerator.GenerateMapboxUrl | map_generator.py:11-14 | The URL starts with the Mapbox base and ends with `?access_token=` and the token |
| MapGenerator.StyleRoundTrip | map_generator.py:12-13 | The style segment read back from the URL is the chosen style, so it is the night style exactly in dark mode |
| MapGenerator.TokenRoundTrip | map_generator.py:13 | When the coordinates and size hold no `?`, the token read back from the URL is the one given |
| MapGenerator.Path | map_generator.py:13 | The path after the style starts with `/`, so the style segment ends there |
| MapGenerator.PathFree | map_generator.py:13 | The path has no `?` when the coordinates and the size have none, so the query string starts at the token |
| MapGenerator.DefaultUrl | map_generator.py:11-14 | With the defaults the URL is the base, the day style, the pin at `lon,lat`, the camera `lon,lat,16,0,60`, the size `500x500@2x` and the token |
| MapGenerator.IsAfterSunset | map_generator.py:16-20 | No contract: the intended test, local time later than 19:00:00; see `MapGenerator.AfterSunsetByFields` and `MapGenerator.AfterSunsetMonotone` |
| MapGenerator.IsAfterSunsetAsWritten | map_generator.py:16-20 | No contract: the comparison as written, against a 19:00 carrying the zone's local-mean-time offset; see `MapGenerator.AsWrittenThreshold` |
| MapGenerator.AfterSunsetByFields | map_generator.py:19-20 | It is after sunset exactly when the hour is past 19, or is 19 with any time past the full hour |
| MapGenerator.AfterSunsetMonotone | map_generator.py:20 | Once after sunset, every later time of the day is too |
| MapGenerator.AsWrittenThreshold | map_generator.py:19-20 | The comparison as written fires at 19:00 plus 7:53 plus the UTC offset |
| MapGenerator.SummerEveningMissed | map_generator.py:19-20 | 19:30 in summer is after 19:00, yet the comparison as written says no |
| MapGenerator.WinterEveningEarly | map_generator.py:19-20 | 18:55 in winter is before 19:00, yet the comparison as written says yes |
| MapGenerator.MapRequestUrl | map_generator.py:22-24 | With the corrected sunset test, the map is requested in the night style exactly when it is after 19:00 |
| MapGenerator.MapRequestUrlAsWritten | map_generator.py:22-24 | As written, the map is requested in the night style exactly when the local-mean-time comparison fires |
| MapGenerator.WinterMapEarly | map_generator.py:22-24 | At 18:55 on a winter evening the program as written requests the night map, where the corrected test requests the day map |
| Monitor.LoadResult | main.py:33-37 | `[]` when the file does not exist, its records when it holds a list, an escaping error when it does not decode |
| Monitor.RecordFile.Load | main.py:33-37 | Loading yields `LoadResult` of the file |
| Monitor.RecordFile.Save | main.py:39-41 | A completed write stores the list; a failed `open` leaves the file; a failed dump leaves it undecodable |
| Monitor.RecordFile.Clear | main.py:26-31 | The file holds `[]`, and loading it yields the empty list |
| Monitor.SaveThenLoad | main.py:33-41 | A completed save is read back unchanged |
| Monitor.Identity | main.py:101-104 | The identity is the "Incident No." value when that is truthy, and a string otherwise |
| Monitor.IdentityFallback | main.py:101-104 | Without a truthy incident number, the identity is the time and the location joined by `-` |
| Monitor.IdentityOfBareRecord | main.py:103 | Absent fields render as `None`, so a bare record's identity is `None-None` |
| Monitor.IdentityIgnoresNo | main.py:101-106 | The identity never depends on "No.", the key the duplicate check reads |
| Monitor.StartNumbers | main.py:93 | The start numbers are exactly the "No." values of the stored records that have that key; `None` is not among them |
| Monitor.Boot | main.py:90-93 | Start-up succeeds exactly when the file decodes and no stored "No." is a list; the data are the loaded records and the numbers are their "No." values |
| Monitor.Monitor.Start | main.py:90-93 | The fields take the loaded records and their numbers; nothing changes when loading raises |
| Monitor.Run | main.py:95-143 | Successive turns only ever append to the list of posted records |
| Monitor.Cycle | main.py:95-143 | A failed, duplicate or not-new turn leaves the sets, the list, the file and the last message unchanged; a published turn appends exactly the fetched record |
| Monitor.Monitor.Step | main.py:96-142 | One turn of the loop moves the fields and the file to the state `Cycle` gives and returns its outcome |
| Monitor.Monitor.RunTurns | main.py:95-143 | Consecutive turns move the state along `Run` |
| Monitor.DuplicateSkipped | main.py:106-112 | A record whose "No." is known is skipped and nothing changes |
| Monitor.AlreadyPostedSkipped | main.py:114 | A record whose identity was posted before leaves the whole state unchanged |
| Monitor.NoDataChangesNothing | main.py:98-102 | A fetch that raises or returns `None` (whose `.get` then raises) changes nothing |
| Monitor.NewIncidentRecorded | main.py:133-137 | A new incident is appended once; afterwards its identity and its "No." are known, neither was before, and a completed save stores the new list |
| Monitor.CollaboratorFailureChangesNothing | main.py:117-128 | A failed map download, summary or post leaves both sets, the list, the file and the last message unchanged |
| Monitor.SaveFailureKeepsMemory | main.py:134-137 | When the save raises, the in-memory updates stay, and a failed `open` leaves the file untouched |
| Monitor.MissingChannelStillRecorded | main.py:72-81 | A channel that cannot be found is only printed, so the incident is still recorded as published |
| Monitor.MissingNoSkippedAfterFirst | main.py:106-109 | Once `None` is among the numbers, every record without "No." is a duplicate |
| Monitor.CycleKeepsDistinct | main.py:106-137 | One turn keeps the records appended since a base state free of repeated "No." values |
| Monitor.RunAppendsDistinct | main.py:95-143 | Over any run, the appended records have pairwise different "No." values, absence counted as `None`, and none repeats a value known when the run began |
| Monitor.AtMostOneWithoutNo | main.py:135 | At most one appended record lacks "No." |
| Monitor.FreshStartDistinct | main.py:145-147 | Starting from the cleared file, no two records the loop stores share a "No." value |

## Left out

- Discord, OpenAI, HTTP, BeautifulSoup and the Nominatim geocoder are not modelled. Their outcomes are inputs: `Env` for the monitor loop, and the page texts, detail cells and `Geocode` for the scraper. `summarize_data` is an opaque result, because its text is a model output.
- The two regular expressions over HTML that are not modelled are the table walk in `scrape_table` and the `colspan="6"` cell capture in `extract_traffic_info`. Their results (header texts, first-row cells, detail cell contents) are inputs.
- `float()` of the coordinates (traffic_scraper.py:50-51) is not modelled. Coordinates keep their scraped numeral, so the f-string in the map URL shows that numeral rather than Python's float repr (a trailing zero would be dropped by Python).
- Hashing treats two numbers as equal only when their numerals are equal, whereas Python also equates `1.0` and `1`. Numbers never reach the sets, which hold table text.
- List rendering (`Records.ListRepr`) quotes items without Python's escaping of quotes and backslashes.
- The file write in `save_map_image`, its HTTP request and its printing are left out; in the loop they are the `mapSaved` outcome.
- tkinter widgets, `root.after` timers, image loading, zoom and resize (floating point), the average-per-hour division, and the severity counter are left out. The severity counter is never written.
- Threads and event loops are left out: `start_bot`, `stop_bot`, `run_bot`, `asyncio.sleep`, and `on_ready` possibly starting the loop twice. The model runs turns one after another.
- `clear_data` in tempCodeRunnerFile.py (lines 209-214) is covered only through `Panel.ClearResets` on the file it leaves. Resetting `latest_posted_message` there is not modelled.
- Writing the file in place is not modelled beyond the three outcomes of `Monitor.WriteOutcome`. A dump that fails after `open` truncated the file leaves it undecodable.
- Both dashboards read `"Time"` and `"Location"` as strings (`Records.TextFields`). A non-string value there would raise `TypeError` in the source, and that path is not modelled.
- TimeParse.ParseFull: `strptime` is simplified in these ways.
  - ASCII digits only.
  - Numeric fields are read greedily, one to two digits, with range checks. The day may also be a space followed by one digit. Since no field is followed by a digit, this accepts what `strptime`'s alternations accept.
  - The year has exactly four digits.
  - A space in the format matches one or more ASCII whitespace characters.
  - `%p` is AM or PM in any letter case.
  - Unicode digits and whitespace, and locale-specific AM/PM names, are not modelled.
- Scraper.LatLonAt and Scraper.FindLatLons read `\d` as an ASCII digit. Python's `\d` in a `str` pattern also matches other Unicode decimal digits.
- Strings.Strip and Scraper.Blanks take whitespace to be the ASCII characters Python counts as whitespace: the six C whitespace characters and `\x1c` to `\x1f`. Python's `str.strip` and `\s` also accept non-ASCII spaces such as `\x85` and `\xa0`.
- Records.StoreFile has no case for a file that decodes as JSON but does not hold a list of records, such as `{}`. On such a file both dashboards reset their statistics rather than keep them (`len({})` is 0). `Unreadable` stands only for text that does not decode. The program itself writes only lists of records or a truncated dump.
- MapGenerator.IsAfterSunset takes the time of day as a parameter, so reading the clock (`datetime.now` in the Los Angeles zone) is not modelled.
- Monitor.Monitor.Start models how `traffic_monitor` begins. The coroutine ends when loading raises; the model reports `false` and leaves the fields as they were.

## Findings

| source | as written | input that shows it | evidently intended | confidence | as-written member | corrected member |
|---|---|---|---|---|---|---|
| map_generator.py:19-20 | The sunset `datetime` is built with `tzinfo=pytz.timezone('America/Los_Angeles')`, which attaches the zone's first entry, local mean time (UTC-7:53). The aware comparison with `now` (UTC-8:00 or UTC-7:00) therefore fires at 18:53 in winter and 19:53 in summer. | 19:30 on a summer evening (UTC-7:00): not "after sunset"; 18:55 on a winter evening: "after sunset" | `now` is later than 19:00 local time | not executed; rests on pytz attaching the LMT offset, rounded to whole minutes, when a zone is passed as `tzinfo` | MapGenerator.SummerEveningMissed | MapGenerator.AfterSunsetByFields |

=== FILE: dashboard.dfy ===
/** The statistics panel of tempCodeRunnerFile.py: `process_incident_for_analytics`,
    `update_analytics_from_file` (reset, then fold every stored record in), and the
    `TextRedirector` that collects printed output for the terminal pane. */
module Dashboard {
  import opened Wrappers
  import opened Strings
  import opened Records
  import opened TimeParse
  import opened Stats

  /** A record whose `"Time"` is non-empty and parses in one of the two formats. */
  predicate Stamped(r: Record)
    requires TextFields(r)
  {
    Filled(TimeOf(r)) && Parseable(TimeOf(r).value)
  }

  /** `process_incident_for_analytics`: a parsed time counts its hour and may become the
      latest time; a non-empty location is counted whether or not the time parsed. */
  function Process(s: Snapshot, r: Record): (t: Snapshot)
    requires ValidSnapshot(s) && TextFields(r)
    ensures ValidSnapshot(t) && t.total == s.total
  {
    var time := TimeOf(r);
    var loc := LocationOf(r);
    var s1 :=
      if Stamped(r) then
        s.(perHour := Increment(s.perHour, HourOf(time.value)),
           last := if !Filled(s.last) || LexLess(s.last.value, time.value) then time else s.last)
      else s;
    if Filled(loc) then s1.(locations := Increment(s1.locations, loc.value)) else s1
  }

  /** `for incident in data: process_incident_for_analytics(incident)`. */
  function Fold(s: Snapshot, data: seq<Record>): (t: Snapshot)
    requires ValidSnapshot(s) && AllTextFields(data)
    ensures ValidSnapshot(t) && t.total == s.total
  {
    if |data| == 0 then s else Process(Fold(s, data[..|data| - 1]), data[|data| - 1])
  }

  /** `update_analytics_from_file`: a missing file resets everything; one whose text
      does not decode leaves the snapshot as it was; otherwise the snapshot is rebuilt from the records. */
  function Refresh(s: Snapshot, f: StoreFile): (t: Snapshot)
    requires ValidSnapshot(s)
    requires f.Holds? ==> AllTextFields(f.records)
    ensures ValidSnapshot(t)
    ensures f.Unreadable? ==> t == s
    ensures f.Missing? ==> t == Reset(0)
  {
    match f
    case Missing => Reset(0)
    case Unreadable => s
    case Holds(data) => Fold(Reset(|data|), data)
  }

  /** The `analytics_data` global. */
  class Analytics {
    var total: nat
    var perHour: Counter<nat>
    var locations: Counter<string>
    var last: Option<string>

    function View(): Snapshot
      reads this
    {
      Snapshot(total, perHour, locations, last)
    }

    predicate Valid()
      reads this
    {
      ValidSnapshot(View())
    }

    constructor ()
      ensures Valid() && View() == Reset(0)
    {
      total, perHour, locations, last := 0, EmptyCounter(), EmptyCounter(), None;
    }

    method ProcessIncident(r: Record)
      requires Valid() && TextFields(r)
      modifies this
      ensures Valid() && View() == Process(old(View()), r)
    {
      var time := TimeOf(r);
      var loc := LocationOf(r);
      if Filled(time) {
        var stamp := ParseIncidentTime(time.value);
        if stamp.Some? {
          perHour := Increment(perHour, stamp.value.hour);
          if !Filled(last) || LexLess(last.value, time.value) {
            last := time;
          }
        }
      }
      if Filled(loc) {
        locations := Increment(locations, loc.value);
      }
    }

    method UpdateFromFile(f: StoreFile)
      requires Valid()
      requires f.Holds? ==> AllTextFields(f.records)
      modifies this
      ensures Valid() && View() == Refresh(old(View()), f)
    {
      match f {
        case Missing =>
          total, perHour, locations, last := 0, EmptyCounter(), EmptyCounter(), None;
        case Unreadable =>
        case Holds(data) =>
          total, perHour, locations, last := |data|, EmptyCounter(), EmptyCounter(), None;
          for i := 0 to |data|
            invariant Valid()
            invariant View() == Fold(Reset(|data|), data[..i])
          {
            assert data[..i + 1][..i] == data[..i];
            ProcessIncident(data[i]);
          }
          assert data[..|data|] == data;
      }
    }
  }

  /** How many records have a non-empty, parseable time. */
  function StampedCount(data: seq<Record>): (n: nat)
    requires AllTextFields(data)
    ensures n <= |data|
  {
    if |data| == 0 then 0
    else StampedCount(data[..|data| - 1]) + (if Stamped(data[|data| - 1]) then 1 else 0)
  }

  /** How many records have a non-empty time that parses to hour `h`. */
  function HourCount(data: seq<Record>, h: nat): nat
    requires AllTextFields(data)
  {
    if |data| == 0 then 0
    else
      var r := data[|data| - 1];
      HourCount(data[..|data| - 1], h) + (if Stamped(r) && HourOf(TimeOf(r).value) == h then 1 else 0)
  }

  /** How many records have `"Location"` equal to the non-empty string `l`. */
  function LocationCount(data: seq<Record>, l: string): nat
    requires AllTextFields(data)
  {
    if |data| == 0 then 0
    else LocationCount(data[..|data| - 1], l) + (if LocationOf(data[|data| - 1]) == Some(l) && l != "" then 1 else 0)
  }

  /** The non-empty, parseable times of the records. */
  function StampedTimes(data: seq<Record>): set<string>
    requires AllTextFields(data)
  {
    set i | 0 <= i < |data| && Stamped(data[i]) :: TimeOf(data[i]).value
  }

  /** The total is the number of stored records. */
  lemma TotalIsRecordCount(s: Snapshot, data: seq<Record>)
    requires ValidSnapshot(s) && AllTextFields(data)
    ensures Refresh(s, Holds(data)).total == |data|
  {
  }

  /** The per-hour counts add up to the number of records with a non-empty parseable
      time, which is at most the total. */
  lemma {:induction false} HourSumIsStampedCount(s: Snapshot, data: seq<Record>)
    requires ValidSnapshot(s) && AllTextFields(data)
    ensures Total(Fold(s, data).perHour) == Total(s.perHour) + StampedCount(data)
  {
    if |data| > 0 {
      var front := data[..|data| - 1];
      HourSumIsStampedCount(s, front);
      var r := data[|data| - 1];
      if Stamped(r) {
        IncrementTotal(Fold(s, front).perHour, HourOf(TimeOf(r).value));
      }
    }
  }

  /** Every counted hour is a clock hour. */
  lemma {:induction false} HoursInRange(s: Snapshot, data: seq<Record>)
    requires ValidSnapshot(s) && AllTextFields(data)
    requires forall h :: h in s.perHour.counts ==> h < 24
    ensures forall h :: h in Fold(s, data).perHour.counts ==> h < 24
  {
    if |data| > 0 {
      HoursInRange(s, data[..|data| - 1]);
    }
  }

  /** Each hour's count is the number of records whose time parses to that hour. */
  lemma {:induction false} PerHourCounts(s: Snapshot, data: seq<Record>, h: nat)
    requires ValidSnapshot(s) && AllTextFields(data)
    ensures Count(Fold(s, data).perHour, h) == Count(s.perHour, h) + HourCount(data, h)
  {
    if |data| > 0 {
      PerHourCounts(s, data[..|data| - 1], h);
    }
  }

  /** Each location's count is the number of records naming it, parseable time or not. */
  lemma {:induction false} LocationCounts(s: Snapshot, data: seq<Record>, l: string)
    requires ValidSnapshot(s) && AllTextFields(data)
    ensures Count(Fold(s, data).locations, l) == Count(s.locations, l) + LocationCount(data, l)
  {
    if |data| > 0 {
      LocationCounts(s, data[..|data| - 1], l);
    }
  }

  /** `t` is the greatest string of `times` in Python's string order. */
  predicate IsLexMax(t: string, times: set<string>) {
    t in times && forall u :: u in times ==> !LexLess(t, u)
  }

  /** Appending a record adds its time to the stamped times exactly when it is stamped. */
  lemma StampedTimesSnoc(front: seq<Record>, r: Record)
    requires AllTextFields(front) && TextFields(r)
    ensures AllTextFields(front + [r])
    ensures Stamped(r) ==> StampedTimes(front + [r]) == StampedTimes(front) + {TimeOf(r).value}
    ensures !Stamped(r) ==> StampedTimes(front + [r]) == StampedTimes(front)
  {
    var data := front + [r];
    assert forall i :: 0 <= i < |front| ==> data[i] == front[i];
    assert data[|front|] == r;
    forall u | u in StampedTimes(data)
      ensures u in StampedTimes(front) || (Stamped(r) && u == TimeOf(r).value)
    {
      var i :| 0 <= i < |data| && Stamped(data[i]) && TimeOf(data[i]).value == u;
      if i < |front| {
        assert front[i] == data[i];
      }
    }
    forall u | u in StampedTimes(front) ensures u in StampedTimes(data) {
      var i :| 0 <= i < |front| && Stamped(front[i]) && TimeOf(front[i]).value == u;
      assert data[i] == front[i];
    }
  }

  /** Stamped times are non-empty strings. */
  lemma StampedTimesFilled(data: seq<Record>, u: string)
    requires AllTextFields(data) && u in StampedTimes(data)
    ensures u != ""
  {
  }

  /** The update `if not last or t > last: last = t` keeps the greatest time seen. */
  lemma {:induction false} KeepMax(last: Option<string>, t: string, times: set<string>)
    requires last.None? <==> times == {}
    requires last.Some? ==> IsLexMax(last.value, times) && last.value != ""
    ensures var last' := if !Filled(last) || LexLess(last.value, t) then Some(t) else last;
      last'.Some? && IsLexMax(last'.value, times + {t})
  {
    if last.Some? {
      var b := last.value;
      if LexLess(b, t) {
        forall u | u in times + {t} ensures !LexLess(t, u) {
          if u != t {
            LexLessTotal(b, u);
            if LexLess(t, u) {
              LexLessTransitive(b, t, u);
            }
          } else {
            LexLessIrreflexive(t);
          }
        }
      }
    } else {
      LexLessIrreflexive(t);
    }
  }

  /** After a reset, the last time is the lexicographically greatest non-empty parseable
      time, and `None` when there is none. */
  lemma {:induction false} LastIsLexMax(n: nat, data: seq<Record>)
    requires AllTextFields(data)
    ensures Fold(Reset(n), data).last.None? <==> StampedTimes(data) == {}
    ensures Fold(Reset(n), data).last.Some? ==> IsLexMax(Fold(Reset(n), data).last.value, StampedTimes(data))
  {
    if |data| > 0 {
      var front := data[..|data| - 1];
      var r := data[|data| - 1];
      LastIsLexMax(n, front);
      assert data == front + [r];
      StampedTimesSnoc(front, r);
      var before := Fold(Reset(n), front).last;
      if Stamped(r) {
        if before.Some? {
          StampedTimesFilled(front, before.value);
        }
        KeepMax(before, TimeOf(r).value, StampedTimes(front));
      }
    }
  }

  /** `"N/A"` is not a time either format parses. */
  lemma NotApplicableUnparsed()
    ensures !Parseable("N/A")
  {
    assert DigitRun("N/A", 0, 4) == 0;
    assert DigitRun("N/A", 0, 2) == 0;
  }

  /** The label after a refresh: `"N/A"` exactly when no stored time parses, otherwise
      the greatest parseable stored time. */
  lemma LastLabelShown(n: nat, data: seq<Record>)
    requires AllTextFields(data)
    ensures LastTimeLabel(Fold(Reset(n), data).last) == "N/A" <==> StampedTimes(data) == {}
    ensures LastTimeLabel(Fold(Reset(n), data).last) != "N/A" ==>
              IsLexMax(LastTimeLabel(Fold(Reset(n), data).last), StampedTimes(data))
  {
    LastIsLexMax(n, data);
    var last := Fold(Reset(n), data).last;
    if last.Some? {
      StampedTimesFilled(data, last.value);
      NotApplicableUnparsed();
    }
  }

  /** The greatest element of a set of strings is unique. */
  lemma LexMaxUnique(a: string, b: string, times: set<string>)
    requires IsLexMax(a, times) && IsLexMax(b, times)
    ensures a == b
  {
    LexLessTotal(a, b);
  }

  /** The last time depends only on which times occur, not on the order of the records. */
  lemma LastIgnoresOrder(n: nat, m: nat, data: seq<Record>, other: seq<Record>)
    requires AllTextFields(data) && AllTextFields(other)
    requires StampedTimes(data) == StampedTimes(other)
    ensures Fold(Reset(n), data).last == Fold(Reset(m), other).last
  {
    LastIsLexMax(n, data);
    LastIsLexMax(m, other);
    var a := Fold(Reset(n), data).last;
    var b := Fold(Reset(m), other).last;
    if a.Some? && b.Some? {
      LexMaxUnique(a.value, b.value, StampedTimes(data));
    }
  }

  /** A missing file resets every counter and the last time. */
  lemma MissingFileResets(s: Snapshot)
    requires ValidSnapshot(s)
    ensures Refresh(s, Missing) == Reset(0)
  {
  }

  /** Reset comes before the fold, so the result does not depend on the previous snapshot,
      and refreshing again from the same file changes nothing. */
  lemma RefreshIdempotent(s: Snapshot, s': Snapshot, f: StoreFile)
    requires ValidSnapshot(s) && ValidSnapshot(s')
    requires f.Holds? ==> AllTextFields(f.records)
    ensures f != Unreadable ==> Refresh(s, f) == Refresh(s', f)
    ensures Refresh(Refresh(s, f), f) == Refresh(s, f)
  {
  }

  /** The terminal pane (`terminal_text`). */
  class TerminalText {
    var content: string

    constructor ()
      ensures content == ""
    {
      content := "";
    }
  }

  /** `TextRedirector`: `sys.stdout` replaced by a string buffer. */
  class TextRedirector {
    var buffer: string
    const widget: TerminalText

    constructor (w: TerminalText)
      ensures buffer == "" && widget == w
    {
      buffer := "";
      widget := w;
    }

    /** `write` appends the message to the buffer. */
    method Write(message: string)
      modifies this
      ensures buffer == old(buffer) + message
    {
      buffer := buffer + message;
    }

    /** `flush` does nothing. */
    method Flush()
      ensures buffer == old(buffer)
    {
    }
  }

  /** `update_terminal`: moves the whole buffer to the end of the terminal pane. */
  method UpdateTerminal(r: TextRedirector)
    modifies r, r.widget
    ensures r.buffer == ""
    ensures r.widget.content == old(r.widget.content) + old(r.buffer)
  {
    var newContent := r.buffer;
    if newContent != "" {
      r.widget.content := r.widget.content + newContent;
      r.buffer := "";
    }
  }
}

=== FILE: map_generator.dfy ===
/** map_generator.py: the Mapbox static-image URL, the day/night style choice, and the
    request `save_map_image` makes. The clock is a parameter; the HTTP request and the
    file write are outcomes the caller supplies. */
module MapGenerator {
  import opened Wrappers
  import opened Strings

  const MapboxBaseUrl: string := "https://api.mapbox.com/styles/v1/mapbox/"
  const NightStyle: string := "traffic-night-v2"
  const DayStyle: string := "traffic-day-v2"

  /** The map style: the night variant exactly when dark mode is on. */
  function Style(darkMode: bool): (s: string)
    ensures s == NightStyle <==> darkMode
    ensures s == DayStyle <==> !darkMode
  {
    if darkMode then NightStyle else DayStyle
  }

  /** `generate_mapbox_url`, with the same defaults. The coordinates arrive already
      rendered as text, as the f-string renders them. */
  function GenerateMapboxUrl(lon: string, lat: string, accessToken: string, zoom: int := 16,
                             bearing: int := 0, pitch: int := 60, size: string := "500x500@2x",
                             darkMode: bool := false): (url: string)
    ensures |url| > |MapboxBaseUrl| && url[..|MapboxBaseUrl|] == MapboxBaseUrl
    ensures |url| >= |"?access_token=" + accessToken|
    ensures url[|url| - |"?access_token=" + accessToken|..] == "?access_token=" + accessToken
  {
    var url := MapboxBaseUrl + Style(darkMode) + Path(lon, lat, zoom, bearing, pitch, size)
               + ("?access_token=" + accessToken);
    assert url[..|MapboxBaseUrl|] == MapboxBaseUrl;
    assert url[|url| - |"?access_token=" + accessToken|..] == "?access_token=" + accessToken;
    url
  }

  /** `lon,lat`, as the pin and the camera centre both write it. */
  function Point(lon: string, lat: string): string {
    lon + "," + lat
  }

  /** The camera segment: centre, zoom, bearing and pitch separated by commas. */
  function Camera(lon: string, lat: string, zoom: int, bearing: int, pitch: int): string {
    Point(lon, lat) + "," + IntToString(zoom) + "," + IntToString(bearing) + "," + IntToString(pitch)
  }

  /** The path after the style: the pin at the coordinates, the camera, and the image size. */
  function Path(lon: string, lat: string, zoom: int, bearing: int, pitch: int, size: string): (p: string)
    ensures |p| > 0 && p[0] == '/'
  {
    "/static/pin-s+ff4242(" + Point(lon, lat) + ")/" + Camera(lon, lat, zoom, bearing, pitch) + "/" + size
  }

  /** The path has no `?` when the coordinates and the size have none. */
  lemma PathFree(lon: string, lat: string, zoom: int, bearing: int, pitch: int, size: string)
    requires Free(lon, '?') && Free(lat, '?') && Free(size, '?')
    ensures Free(Path(lon, lat, zoom, bearing, pitch, size), '?')
  {
    IntFree(zoom);
    IntFree(bearing);
    IntFree(pitch);
    var pin := "/static/pin-s+ff4242(";
    assert Free(pin, '?') by {
      assert pin == ['/', 's', 't', 'a', 't', 'i', 'c', '/', 'p', 'i', 'n', '-', 's', '+', 'f', 'f', '4', '2', '4',
                     '2', '('];
    }
    assert Free(",", '?') && Free(")/", '?') && Free("/", '?');
    FreeAppend(lon, ",", '?');
    FreeAppend(lon + ",", lat, '?');
    var point := Point(lon, lat);
    var c := point;
    FreeAppend(c, ",", '?'); c := c + ",";
    FreeAppend(c, IntToString(zoom), '?'); c := c + IntToString(zoom);
    FreeAppend(c, ",", '?'); c := c + ",";
    FreeAppend(c, IntToString(bearing), '?'); c := c + IntToString(bearing);
    FreeAppend(c, ",", '?'); c := c + ",";
    FreeAppend(c, IntToString(pitch), '?'); c := c + IntToString(pitch);
    assert c == Camera(lon, lat, zoom, bearing, pitch);
    var p := pin;
    FreeAppend(p, point, '?'); p := p + point;
    FreeAppend(p, ")/", '?'); p := p + ")/";
    FreeAppend(p, c, '?'); p := p + c;
    FreeAppend(p, "/", '?'); p := p + "/";
    FreeAppend(p, size, '?'); p := p + size;
  }

  lemma FreeAppend(a: string, b: string, c: char)
    requires Free(a, c) && Free(b, c)
    ensures Free(a + b, c)
  {
  }

  /** With the defaults the URL asks for the day style, and the camera is zoom 16,
      bearing 0 and pitch 60 around the pin. */
  lemma DefaultUrl(lon: string, lat: string, accessToken: string)
    ensures GenerateMapboxUrl(lon, lat, accessToken) == MapboxBaseUrl + DayStyle
      + ("/static/pin-s+ff4242(" + Point(lon, lat) + ")/" + Camera(lon, lat, 16, 0, 60) + "/" + "500x500@2x")
      + ("?access_token=" + accessToken)
    ensures Camera(lon, lat, 16, 0, 60) == lon + "," + lat + ",16,0,60"
    ensures StyleOf(GenerateMapboxUrl(lon, lat, accessToken)) == Some(DayStyle)
  {
    StyleRoundTrip(lon, lat, accessToken, 16, 0, 60, "500x500@2x", false);
    assert IntToString(16) == "16" by {
      assert NatToString(1) == "1";
      assert NatToString(16) == NatToString(1) + [DigitChar(6)];
    }
    assert IntToString(0) == "0";
    assert IntToString(60) == "60" by {
      assert NatToString(6) == "6";
      assert NatToString(60) == NatToString(6) + [DigitChar(0)];
    }
  }

  /** The index of the first `c` in `s`, or `|s|`. */
  function FindChar(s: string, c: char): (i: nat)
    ensures i <= |s|
    ensures forall k :: 0 <= k < i ==> s[k] != c
    ensures i < |s| ==> s[i] == c
  {
    if s == [] || s[0] == c then 0 else 1 + FindChar(s[1..], c)
  }

  predicate Free(s: string, c: char) {
    forall k :: 0 <= k < |s| ==> s[k] != c
  }

  /** The style segment of a Mapbox styles URL: the text between the base and the next `/`. */
  function StyleOf(url: string): (r: Option<string>)
    ensures r.Some? ==> Free(r.value, '/')
  {
    if |url| < |MapboxBaseUrl| || url[..|MapboxBaseUrl|] != MapboxBaseUrl then None
    else
      var rest := url[|MapboxBaseUrl|..];
      var i := FindChar(rest, '/');
      if i == |rest| then None else Some(rest[..i])
  }

  /** The access token of a URL: what follows the first `?`, once `access_token=` is removed. */
  function TokenOf(url: string): (r: Option<string>)
  {
    var i := FindChar(url, '?');
    if i == |url| then None
    else
      var query := url[i + 1..];
      if |query| >= 13 && query[..13] == "access_token=" then Some(query[13..]) else None
  }

  /** The first `c` of `a + b` is the first one of `b` when `a` has none. */
  lemma FindCharAppend(a: string, b: string, c: char)
    requires Free(a, c)
    ensures FindChar(a + b, c) == |a| + FindChar(b, c)
  {
    var j := FindChar(b, c);
    assert forall k :: 0 <= k < |a| ==> (a + b)[k] == a[k];
    assert forall k :: 0 <= k < j ==> (a + b)[|a| + k] == b[k];
    if j < |b| {
      assert (a + b)[|a| + j] == c;
    }
  }

  lemma StyleFree(darkMode: bool, c: char)
    requires c == '/' || c == '?'
    ensures Free(Style(darkMode), c)
  {
    assert NightStyle == ['t', 'r', 'a', 'f', 'f', 'i', 'c', '-', 'n', 'i', 'g', 'h', 't', '-', 'v', '2'];
    assert DayStyle == ['t', 'r', 'a', 'f', 'f', 'i', 'c', '-', 'd', 'a', 'y', '-', 'v', '2'];
  }

  /** The URL names the night style exactly when it was built in dark mode. */
  lemma StyleRoundTrip(lon: string, lat: string, accessToken: string, zoom: int, bearing: int,
                       pitch: int, size: string, darkMode: bool)
    ensures StyleOf(GenerateMapboxUrl(lon, lat, accessToken, zoom, bearing, pitch, size, darkMode))
            == Some(Style(darkMode))
    ensures darkMode <==>
              StyleOf(GenerateMapboxUrl(lon, lat, accessToken, zoom, bearing, pitch, size, darkMode)) == Some(NightStyle)
  {
    var url := GenerateMapboxUrl(lon, lat, accessToken, zoom, bearing, pitch, size, darkMode);
    var path := Path(lon, lat, zoom, bearing, pitch, size);
    var q := "?access_token=" + accessToken;
    var tail := path + q;
    assert url == MapboxBaseUrl + Style(darkMode) + path + q;
    AppendAssoc(MapboxBaseUrl, Style(darkMode), path, q);
    StyleFree(darkMode, '/');
    StyleBeforeSlash(Style(darkMode), tail);
  }

  lemma AppendAssoc(a: string, b: string, c: string, d: string)
    ensures a + b + c + d == a + (b + (c + d))
  {
  }

  /** The style segment is read up to the `/` that follows it. */
  lemma StyleBeforeSlash(style: string, tail: string)
    requires Free(style, '/') && |tail| > 0 && tail[0] == '/'
    ensures StyleOf(MapboxBaseUrl + (style + tail)) == Some(style)
  {
    var url := MapboxBaseUrl + (style + tail);
    assert url[..|MapboxBaseUrl|] == MapboxBaseUrl;
    assert url[|MapboxBaseUrl|..] == style + tail;
    FindCharAppend(style, tail, '/');
    assert (style + tail)[|style|] == '/';
    assert (style + tail)[..|style|] == style;
  }

  /** With question-mark-free coordinates and size, the token is read back from the URL. */
  lemma TokenRoundTrip(lon: string, lat: string, accessToken: string, zoom: int, bearing: int,
                       pitch: int, size: string, darkMode: bool)
    requires Free(lon, '?') && Free(lat, '?') && Free(size, '?')
    ensures TokenOf(GenerateMapboxUrl(lon, lat, accessToken, zoom, bearing, pitch, size, darkMode))
            == Some(accessToken)
  {
    var url := GenerateMapboxUrl(lon, lat, accessToken, zoom, bearing, pitch, size, darkMode);
    var head := MapboxBaseUrl + Style(darkMode) + Path(lon, lat, zoom, bearing, pitch, size);
    var q := "?access_token=" + accessToken;
    assert url == head + q;
    StyleFree(darkMode, '?');
    PathFree(lon, lat, zoom, bearing, pitch, size);
    HeadFree(Style(darkMode), Path(lon, lat, zoom, bearing, pitch, size));
    TokenAfter(head, accessToken);
  }

  /** The query string after a `?`-free head gives back its token. */
  lemma TokenAfter(head: string, accessToken: string)
    requires Free(head, '?')
    ensures TokenOf(head + ("?access_token=" + accessToken)) == Some(accessToken)
  {
    var q := "?access_token=" + accessToken;
    var url := head + q;
    FindCharAppend(head, q, '?');
    assert FindChar(q, '?') == 0;
    assert url[|head| + 1..] == q[1..];
    assert q[1..] == "access_token=" + accessToken;
    assert ("access_token=" + accessToken)[..13] == "access_token=";
  }

  /** Base, style and path together have no `?`. */
  lemma HeadFree(style: string, path: string)
    requires Free(style, '?') && Free(path, '?')
    ensures Free(MapboxBaseUrl + style + path, '?')
  {
    assert Free(MapboxBaseUrl, '?') by {
      assert MapboxBaseUrl == ['h', 't', 't', 'p', 's', ':', '/', '/', 'a', 'p', 'i', '.', 'm', 'a', 'p', 'b',
                               'o', 'x', '.', 'c', 'o', 'm', '/', 's', 't', 'y', 'l', 'e', 's', '/', 'v',
                               '1', '/', 'm', 'a', 'p', 'b', 'o', 'x', '/'];
    }
    FreeAppend(MapboxBaseUrl, style, '?');
    FreeAppend(MapboxBaseUrl + style, path, '?');
  }

  /** A numeral has no `?`. */
  lemma IntFree(i: int)
    ensures Free(IntToString(i), '?')
  {
    var s := IntToString(i);
    if i >= 0 {
      assert AllDigits(s);
    } else {
      assert AllDigits(s[1..]);
    }
  }

  // ---------------------------------------------------------------- is_after_sunset

  /** A wall-clock reading in the Los Angeles zone: time of day and the UTC offset in
      minutes (-480 in winter, -420 in summer). The date is left out: `now` and the
      sunset share it. */
  datatype Clock = Clock(hour: nat, minute: nat, second: nat, microsecond: nat, utcOffset: int)

  predicate ValidClock(c: Clock) {
    c.hour < 24 && c.minute < 60 && c.second < 60 && c.microsecond < 1000000
  }

  /** Microseconds since local midnight. */
  function LocalMicros(c: Clock): nat {
    ((c.hour * 60 + c.minute) * 60 + c.second) * 1000000 + c.microsecond
  }

  const SunsetMicros: nat := 19 * 3600 * 1000000

  /** 19:00:00 local time has passed. */
  predicate IsAfterSunset(now: Clock) {
    LocalMicros(now) > SunsetMicros
  }

  /** After sunset is the hour 19 with any time past the full hour, or a later hour. */
  lemma AfterSunsetByFields(c: Clock)
    requires ValidClock(c)
    ensures IsAfterSunset(c) <==>
              c.hour > 19 || (c.hour == 19 && (c.minute > 0 || c.second > 0 || c.microsecond > 0))
  {
    var inHour := (c.minute * 60 + c.second) * 1000000 + c.microsecond;
    assert LocalMicros(c) == c.hour * 3600000000 + inHour;
    assert inHour < 3600000000 by {
      assert c.minute * 60 + c.second <= 3599;
      assert (c.minute * 60 + c.second) * 1000000 <= 3599 * 1000000;
    }
    assert inHour == 0 <==> c.minute == 0 && c.second == 0 && c.microsecond == 0 by {
      if c.minute > 0 || c.second > 0 {
        assert c.minute * 60 + c.second >= 1;
        assert (c.minute * 60 + c.second) * 1000000 >= 1000000;
      }
    }
    if c.hour >= 20 {
      assert c.hour * 3600000000 >= 20 * 3600000000;
    } else if c.hour <= 18 {
      assert c.hour * 3600000000 <= 18 * 3600000000;
    }
  }

  /** Once it is after sunset, it stays so for the rest of the day. */
  lemma AfterSunsetMonotone(a: Clock, b: Clock)
    requires LocalMicros(a) <= LocalMicros(b) && IsAfterSunset(a)
    ensures IsAfterSunset(b)
  {
  }

  /** The pytz zone's first entry, local mean time, is 7 hours 53 minutes behind UTC. */
  const LmtOffset: int := -473

  /** `is_after_sunset` as written: the sunset datetime built with `tzinfo=` carries the
      local-mean-time offset, and the two aware datetimes compare as instants. */
  predicate IsAfterSunsetAsWritten(now: Clock) {
    LocalMicros(now) - now.utcOffset * 60000000 > SunsetMicros - LmtOffset * 60000000
  }

  /** The as-written check fires at 19:00 plus 7:53 plus the offset: 19:53 in summer and
      18:53 in winter. */
  lemma AsWrittenThreshold(now: Clock)
    ensures IsAfterSunsetAsWritten(now) <==>
              LocalMicros(now) > SunsetMicros + (now.utcOffset - LmtOffset) * 60000000
  {
  }

  /** 19:30 on a summer evening: past 19:00, but the as-written check says no. */
  lemma SummerEveningMissed()
    ensures ValidClock(Clock(19, 30, 0, 0, -420))
    ensures IsAfterSunset(Clock(19, 30, 0, 0, -420))
    ensures !IsAfterSunsetAsWritten(Clock(19, 30, 0, 0, -420))
  {
  }

  /** 18:55 on a winter evening: before 19:00, but the as-written check says yes. */
  lemma WinterEveningEarly()
    ensures ValidClock(Clock(18, 55, 0, 0, -480))
    ensures !IsAfterSunset(Clock(18, 55, 0, 0, -480))
    ensures IsAfterSunsetAsWritten(Clock(18, 55, 0, 0, -480))
  {
  }

  // ---------------------------------------------------------------- save_map_image

  /** The URL `save_map_image` requests at time `now`: default camera, dark style after sunset. */
  function MapRequestUrl(lon: string, lat: string, accessToken: string, now: Clock): (url: string)
    ensures StyleOf(url) == Some(NightStyle) <==> IsAfterSunset(now)
  {
    StyleRoundTrip(lon, lat, accessToken, 16, 0, 60, "500x500@2x", IsAfterSunset(now));
    GenerateMapboxUrl(lon, lat, accessToken, darkMode := IsAfterSunset(now))
  }

  /** The URL `save_map_image` requests as written: the style follows the comparison
      against the local-mean-time sunset. */
  function MapRequestUrlAsWritten(lon: string, lat: string, accessToken: string, now: Clock): (url: string)
    ensures StyleOf(url) == Some(NightStyle) <==> IsAfterSunsetAsWritten(now)
  {
    StyleRoundTrip(lon, lat, accessToken, 16, 0, 60, "500x500@2x", IsAfterSunsetAsWritten(now));
    GenerateMapboxUrl(lon, lat, accessToken, darkMode := IsAfterSunsetAsWritten(now))
  }

  /** At 18:55 on a winter evening the program as written asks for the night map,
      five minutes before 19:00. */
  lemma WinterMapEarly(lon: string, lat: string, accessToken: string)
    ensures StyleOf(MapRequestUrlAsWritten(lon, lat, accessToken, Clock(18, 55, 0, 0, -480))) == Some(NightStyle)
    ensures StyleOf(MapRequestUrl(lon, lat, accessToken, Clock(18, 55, 0, 0, -480))) == Some(DayStyle)
  {
    WinterEveningEarly();
    StyleRoundTrip(lon, lat, accessToken, 16, 0, 60, "500x500@2x", false);
  }
}

=== FILE: monitor.dfy ===
/** main.py: the record file, the incident identity, and one turn of the
    `traffic_monitor` loop with its duplicate checks. The scraper, the map download,
    the summariser, Discord and the file write are outcomes supplied per turn. */
module Monitor {
  import opened Wrappers
  import opened Records
  import opened Scraper

  // ---------------------------------------------------------------- the record file

  /** How writing the file ends: written, `open` raised (the file is untouched), or
      the dump raised after `open` had truncated it. */
  datatype WriteOutcome = Written | OpenFailed | DumpFailed

  /** `load_data_from_file`: `[]` when the file does not exist, its records when it holds
      a list, and an escaping exception (`None`) when it cannot be decoded. */
  function LoadResult(f: StoreFile): (r: Option<seq<Record>>)
    ensures r.None? <==> f.Unreadable?
    ensures f.Missing? ==> r == Some([])
    ensures f.Holds? ==> r == Some(f.records)
  {
    match f
    case Missing => Some([])
    case Unreadable => None
    case Holds(d) => Some(d)
  }

  /** The file after `save_data_to_file(data)` ends with `outcome`. */
  function AfterSave(f: StoreFile, data: seq<Record>, outcome: WriteOutcome): StoreFile {
    match outcome
    case Written => Holds(data)
    case OpenFailed => f
    case DumpFailed => Unreadable
  }

  /** A completed save is read back unchanged. */
  lemma SaveThenLoad(f: StoreFile, data: seq<Record>)
    ensures LoadResult(AfterSave(f, data, Written)) == Some(data)
  {
  }

  /** `previous_data.json`. */
  class RecordFile {
    var content: StoreFile

    constructor(initial: StoreFile)
      ensures content == initial
    {
      content := initial;
    }

    /** `load_data_from_file`. */
    method Load() returns (r: Option<seq<Record>>)
      ensures r == LoadResult(content)
    {
      match content
      case Missing => r := Some([]);
      case Unreadable => r := None;
      case Holds(d) => r := Some(d);
    }

    /** `save_data_to_file(data)`. */
    method Save(data: seq<Record>, outcome: WriteOutcome)
      modifies this
      ensures content == AfterSave(old(content), data, outcome)
    {
      match outcome
      case Written => content := Holds(data);
      case OpenFailed =>
      case DumpFailed => content := Unreadable;
    }

    /** `clear_json_file`: the file holds the empty list. */
    method Clear()
      modifies this
      ensures content == Holds([])
      ensures LoadResult(content) == Some([])
    {
      content := Holds([]);
    }
  }

  // ---------------------------------------------------------------- identity

  /** The identity of a record: its `"Incident No."` when that is truthy, otherwise
      `"<Time>-<Location>"` with an absent field rendered as `None`. */
  function Identity(r: Record): (id: Value)
    ensures TruthyGet(Get(r, "Incident No.")) ==> id == r["Incident No."]
    ensures !TruthyGet(Get(r, "Incident No.")) ==> id.Text?
  {
    var given := Get(r, "Incident No.");
    if TruthyGet(given) then given.value
    else Text(Render(Get(r, "Time")) + "-" + Render(Get(r, "Location")))
  }

  /** Without an incident number, the identity is the time and location joined by a dash. */
  lemma IdentityFallback(r: Record, time: string, location: string)
    requires !TruthyGet(Get(r, "Incident No."))
    requires Get(r, "Time") == Some(Text(time)) && Get(r, "Location") == Some(Text(location))
    ensures Identity(r) == Text(time + "-" + location)
  {
  }

  /** A record with neither number, time nor location is identified as `None-None`. */
  lemma IdentityOfBareRecord(r: Record)
    requires "Incident No." !in r && "Time" !in r && "Location" !in r
    ensures Identity(r) == Text("None-None")
  {
  }

  /** The identity never reads `"No."`, the key the duplicate check uses. */
  lemma IdentityIgnoresNo(r: Record, v: Value)
    ensures Identity(r["No." := v]) == Identity(r)
    ensures Identity(r - {"No."}) == Identity(r)
  {
    assert Get(r["No." := v], "Incident No.") == Get(r, "Incident No.");
    assert Get(r["No." := v], "Time") == Get(r, "Time");
    assert Get(r["No." := v], "Location") == Get(r, "Location");
    assert Get(r - {"No."}, "Incident No.") == Get(r, "Incident No.");
    assert Get(r - {"No."}, "Time") == Get(r, "Time");
    assert Get(r - {"No."}, "Location") == Get(r, "Location");
  }

  /** Python can put only strings and numbers in a set; a list raises `TypeError`. */
  predicate Hashable(v: Value) {
    !v.TextList?
  }

  predicate HashableNo(n: Option<Value>) {
    n.None? || Hashable(n.value)
  }

  // ---------------------------------------------------------------- the monitor loop

  /** How `post_to_discord` ends: sent, the channel was not found (printed, no raise),
      or sending raised. */
  datatype PostOutcome = Posted | NoChannel | PostRaised

  /** What the collaborators do in one turn: the merged record, whether the map image
      was saved, the summary (`None` when the summariser raised), the post, the save. */
  datatype Env = Env(fetched: Merged, mapSaved: bool, summary: Option<string>, post: PostOutcome,
                     save: WriteOutcome)

  /** How a turn ends: an exception was caught, the `"No."` was seen before, the record
      was empty or its identity was posted before, the incident was published and saved,
      or it was published and the save raised. */
  datatype Outcome = Failed | Duplicate | NotNew | Published | SaveFailed

  /** The loop's state: `posted_incidents`, `existing_incident_numbers`,
      `all_previous_data`, `latest_posted_message`, `latest_gpt_description`, and the file. */
  datatype State = State(posted: set<Value>, numbers: set<Option<Value>>, data: seq<Record>,
                         latestPosted: Option<string>, latestDescription: Option<string>,
                         stored: StoreFile)

  datatype Turn = Turn(state: State, outcome: Outcome)

  /** The `"No."` values of the stored records that have that key. */
  function StartNumbers(data: seq<Record>): (ns: set<Option<Value>>)
    ensures None !in ns
    ensures forall i :: 0 <= i < |data| && "No." in data[i] ==> Some(data[i]["No."]) in ns
    ensures forall n :: n in ns ==> exists i :: 0 <= i < |data| && "No." in data[i] && n == Some(data[i]["No."])
  {
    set i | 0 <= i < |data| && "No." in data[i] :: Some(data[i]["No."])
  }

  /** The start of `traffic_monitor`: load the file and collect its numbers. It ends the
      task (`None`) when the file cannot be decoded or a stored `"No."` is a list. */
  function Boot(f: StoreFile): (r: Option<State>)
    ensures r.Some? <==> !f.Unreadable? && forall i :: 0 <= i < |LoadResult(f).value| ==>
                            HashableNo(Get(LoadResult(f).value[i], "No."))
    ensures r.Some? ==> r.value.posted == {} && r.value.data == LoadResult(f).value
                        && r.value.numbers == StartNumbers(r.value.data) && r.value.stored == f
  {
    var data :- LoadResult(f);
    if forall i :: 0 <= i < |data| ==> HashableNo(Get(data[i], "No.")) then
      Some(State({}, StartNumbers(data), data, None, None, f))
    else None
  }

  /** One pass of the `while True` body. */
  function Cycle(s: State, env: Env): (t: Turn)
    ensures t.outcome in {Failed, Duplicate, NotNew} ==>
              t.state.posted == s.posted && t.state.numbers == s.numbers && t.state.data == s.data
              && t.state.stored == s.stored && t.state.latestPosted == s.latestPosted
    ensures t.outcome in {Published, SaveFailed} ==>
              env.fetched.Data? && t.state.data == s.data + [env.fetched.record]
  {
    match env.fetched
    case FetchRaised => Turn(s, Failed)
    case NoData => Turn(s, Failed)
    case Data(r) =>
      var id := Identity(r);
      var no := Get(r, "No.");
      if !HashableNo(no) then Turn(s, Failed)
      else if no in s.numbers then Turn(s, Duplicate)
      else if r == map[] then Turn(s, NotNew)
      else if !Hashable(id) then Turn(s, Failed)
      else if id in s.posted then Turn(s, NotNew)
      else if !env.mapSaved || env.summary.None? then Turn(s, Failed)
      else if env.post == PostRaised then Turn(s.(latestDescription := env.summary), Failed)
      else
        var data := s.data + [r];
        var s' := s.(latestPosted := env.summary, latestDescription := env.summary,
                     posted := s.posted + {id}, numbers := s.numbers + {no}, data := data,
                     stored := AfterSave(s.stored, data, env.save));
        Turn(s', if env.save == Written then Published else SaveFailed)
  }

  /** `traffic_monitor` with its state in fields. */
  class Monitor {
    var posted: set<Value>
    var numbers: set<Option<Value>>
    var data: seq<Record>
    var latestPosted: Option<string>
    var latestDescription: Option<string>
    const file: RecordFile

    function View(): State
      reads this, file
    {
      State(posted, numbers, data, latestPosted, latestDescription, file.content)
    }

    /** The module globals before the task starts. */
    constructor(f: RecordFile)
      ensures file == f && posted == {} && numbers == {} && data == []
      ensures latestPosted == None && latestDescription == None
    {
      file := f;
      posted := {};
      numbers := {};
      data := [];
      latestPosted := None;
      latestDescription := None;
    }

    /** Loads the stored records and their numbers; `false` when that raises. */
    method Start() returns (ok: bool)
      modifies this
      ensures ok <==> Boot(file.content).Some?
      ensures ok ==> View() == Boot(file.content).value.(latestPosted := old(latestPosted),
                                                        latestDescription := old(latestDescription),
                                                        posted := old(posted))
      ensures !ok ==> View() == old(View())
    {
      var loaded := file.Load();
      if loaded.None? {
        return false;
      }
      var d := loaded.value;
      if !forall i :: 0 <= i < |d| ==> HashableNo(Get(d[i], "No.")) {
        return false;
      }
      data := d;
      numbers := StartNumbers(d);
      return true;
    }

    /** One turn of the loop. */
    method Step(env: Env) returns (outcome: Outcome)
      modifies this, file
      ensures Cycle(old(View()), env) == Turn(View(), outcome)
    {
      if env.fetched.FetchRaised? || env.fetched.NoData? {
        return Failed;
      }
      var current := env.fetched.record;
      var incidentId := Identity(current);
      var currentNo := Get(current, "No.");
      if !HashableNo(currentNo) {
        return Failed;
      }
      if currentNo in numbers {
        return Duplicate;
      }
      if current == map[] {
        return NotNew;
      }
      if !Hashable(incidentId) {
        return Failed;
      }
      if incidentId in posted {
        return NotNew;
      }
      if !env.mapSaved || env.summary.None? {
        return Failed;
      }
      latestDescription := env.summary;
      if env.post == PostRaised {
        return Failed;
      }
      latestPosted := env.summary;
      posted := posted + {incidentId};
      numbers := numbers + {currentNo};
      data := data + [current];
      file.Save(data, env.save);
      outcome := if env.save == Written then Published else SaveFailed;
    }

    /** Several turns in a row. */
    method RunTurns(envs: seq<Env>)
      modifies this, file
      ensures View() == Run(old(View()), envs)
    {
      for i := 0 to |envs|
        invariant View() == Run(old(View()), envs[..i])
      {
        assert envs[..i + 1][..i] == envs[..i];
        var _ := Step(envs[i]);
      }
      assert envs[..|envs|] == envs;
    }
  }

  /** The state after a sequence of turns. */
  function Run(s: State, envs: seq<Env>): (t: State)
    ensures s.data <= t.data
  {
    if envs == [] then s else Cycle(Run(s, envs[..|envs| - 1]), envs[|envs| - 1]).state
  }

  // ---------------------------------------------------------------- one-turn properties

  /** A record whose `"No."` was seen before is skipped and nothing changes. */
  lemma DuplicateSkipped(s: State, env: Env)
    requires env.fetched.Data? && Get(env.fetched.record, "No.") in s.numbers
    requires HashableNo(Get(env.fetched.record, "No."))
    ensures Cycle(s, env) == Turn(s, Duplicate)
  {
  }

  /** A record whose identity was posted before (and whose `"No."` is new) is skipped. */
  lemma AlreadyPostedSkipped(s: State, env: Env)
    requires env.fetched.Data? && Get(env.fetched.record, "No.") !in s.numbers
    requires HashableNo(Get(env.fetched.record, "No.")) && Identity(env.fetched.record) in s.posted
    ensures Cycle(s, env).state == s
    ensures Cycle(s, env).outcome in {NotNew, Failed}
  {
  }

  /** A fetch that raises or returns `None` changes nothing. */
  lemma NoDataChangesNothing(s: State, env: Env)
    requires !env.fetched.Data?
    ensures Cycle(s, env) == Turn(s, Failed)
  {
  }

  /** A new incident is appended once, and afterwards both its identity and its number
      are known; the file holds the new list when the save completes. */
  lemma NewIncidentRecorded(s: State, env: Env)
    requires Cycle(s, env).outcome in {Published, SaveFailed}
    ensures var r := env.fetched.record; var t := Cycle(s, env).state;
      && t.data == s.data + [r]
      && Identity(r) in t.posted && Identity(r) !in s.posted && t.posted == s.posted + {Identity(r)}
      && Get(r, "No.") in t.numbers && Get(r, "No.") !in s.numbers
      && t.numbers == s.numbers + {Get(r, "No.")}
      && t.latestPosted == env.summary && env.summary.Some?
      && (env.save == Written ==> t.stored == Holds(t.data))
  {
  }

  /** A failed map download, summary or post leaves the lists, sets, file and last
      message as they were. */
  lemma CollaboratorFailureChangesNothing(s: State, env: Env)
    requires !env.mapSaved || env.summary.None? || env.post == PostRaised
    ensures var t := Cycle(s, env).state;
      t.posted == s.posted && t.numbers == s.numbers && t.data == s.data && t.stored == s.stored
      && t.latestPosted == s.latestPosted
  {
  }

  /** A save that raises comes after the in-memory updates, which stay. */
  lemma SaveFailureKeepsMemory(s: State, env: Env)
    requires env.save != Written && Cycle(s, env).outcome != Failed
    requires Cycle(s, env).outcome !in {Duplicate, NotNew}
    ensures Cycle(s, env).outcome == SaveFailed
    ensures Cycle(s, env).state.data == s.data + [env.fetched.record]
    ensures env.save == OpenFailed ==> Cycle(s, env).state.stored == s.stored
  {
  }

  /** A channel that cannot be found is only printed: the incident still counts as posted. */
  lemma MissingChannelStillRecorded(s: State, env: Env)
    requires env.post == NoChannel && env.mapSaved && env.summary.Some? && env.save == Written
    requires env.fetched.Data? && env.fetched.record != map[]
    requires HashableNo(Get(env.fetched.record, "No.")) && Hashable(Identity(env.fetched.record))
    requires Get(env.fetched.record, "No.") !in s.numbers && Identity(env.fetched.record) !in s.posted
    ensures Cycle(s, env).outcome == Published
    ensures Cycle(s, env).state.data == s.data + [env.fetched.record]
  {
  }

  /** Once a record without `"No."` was recorded, every later one without it is a duplicate. */
  lemma MissingNoSkippedAfterFirst(s: State, env: Env)
    requires None in s.numbers && env.fetched.Data? && "No." !in env.fetched.record
    ensures Cycle(s, env) == Turn(s, Duplicate)
  {
  }

  // ---------------------------------------------------------------- properties of runs

  /** The records appended since `base` carry pairwise different `"No."` values (absence
      counted as `None`), none of them known at `base`, and all of them known now. */
  predicate AppendedDistinct(base: State, s: State) {
    && |base.data| <= |s.data| && s.data[..|base.data|] == base.data
    && base.numbers <= s.numbers
    && (forall i :: |base.data| <= i < |s.data| ==> Get(s.data[i], "No.") in s.numbers)
    && (forall i :: |base.data| <= i < |s.data| ==> Get(s.data[i], "No.") !in base.numbers)
    && (forall i, j :: |base.data| <= i < j < |s.data| ==> Get(s.data[i], "No.") != Get(s.data[j], "No."))
  }

  /** One turn keeps the appended records distinct. */
  lemma {:induction false} CycleKeepsDistinct(base: State, s: State, env: Env)
    requires AppendedDistinct(base, s)
    ensures AppendedDistinct(base, Cycle(s, env).state)
  {
    var t := Cycle(s, env);
    if t.outcome in {Published, SaveFailed} {
      var r := env.fetched.record;
      var no := Get(r, "No.");
      assert no !in s.numbers;
      assert t.state.numbers == s.numbers + {no};
      assert t.state.data == s.data + [r];
      forall i | |base.data| <= i < |t.state.data|
        ensures Get(t.state.data[i], "No.") in t.state.numbers
        ensures Get(t.state.data[i], "No.") !in base.numbers
      {
        if i < |s.data| {
          assert t.state.data[i] == s.data[i];
        }
      }
      forall i, j | |base.data| <= i < j < |t.state.data|
        ensures Get(t.state.data[i], "No.") != Get(t.state.data[j], "No.")
      {
        assert t.state.data[i] == s.data[i];
        if j < |s.data| {
          assert t.state.data[j] == s.data[j];
        }
      }
      assert t.state.data[..|base.data|] == s.data[..|base.data|];
    }
  }

  /** However the collaborators behave, the records the loop appends never share a
      `"No."` value, and none repeats one present when the run began. */
  lemma {:induction false} RunAppendsDistinct(s: State, envs: seq<Env>)
    ensures AppendedDistinct(s, Run(s, envs))
  {
    if envs == [] {
      assert s.data[..|s.data|] == s.data;
    } else {
      RunAppendsDistinct(s, envs[..|envs| - 1]);
      CycleKeepsDistinct(s, Run(s, envs[..|envs| - 1]), envs[|envs| - 1]);
    }
  }

  /** At most one appended record lacks `"No."`. */
  lemma AtMostOneWithoutNo(s: State, envs: seq<Env>, i: nat, j: nat)
    requires |s.data| <= i < j < |Run(s, envs).data|
    ensures "No." in Run(s, envs).data[i] || "No." in Run(s, envs).data[j]
  {
    RunAppendsDistinct(s, envs);
  }

  /** After starting from the cleared file, the loop's records are all ones it appended,
      so no two of them share a `"No."`. */
  lemma FreshStartDistinct(envs: seq<Env>, i: nat, j: nat)
    requires i < j < |Run(Boot(Holds([])).value, envs).data|
    ensures Get(Run(Boot(Holds([])).value, envs).data[i], "No.") != Get(Run(Boot(Holds([])).value, envs).data[j], "No.")
  {
    var s := Boot(Holds([])).value;
    assert s.data == [];
    RunAppendsDistinct(s, envs);
  }
}

=== FILE: panel.dfy ===
/** The statistics panel of gui.py, the other revision of the dashboard: its
    `update_analytics_from_file` skips a record whose time is present but unparseable
    altogether, and leaves the statistics alone when the file is missing. The lemmas at
    the end say where the two revisions agree and where they differ. */
module Panel {
  import opened Wrappers
  import opened Strings
  import opened Records
  import opened TimeParse
  import opened Stats
  import Dashboard

  /** A record with a non-empty time that neither format parses (the `continue` branch). */
  predicate BadTime(r: Record)
    requires TextFields(r)
  {
    Filled(TimeOf(r)) && !Parseable(TimeOf(r).value)
  }

  /** The body of the loop over the records in gui.py's `update_analytics_from_file`. */
  function Step(s: Snapshot, r: Record): (t: Snapshot)
    requires ValidSnapshot(s) && TextFields(r)
    ensures ValidSnapshot(t) && t.total == s.total
  {
    var time := TimeOf(r);
    if BadTime(r) then s
    else
      var s1 := if Filled(time) then s.(perHour := Increment(s.perHour, HourOf(time.value))) else s;
      var loc := LocationOf(r);
      var s2 := if Filled(loc) then s1.(locations := Increment(s1.locations, loc.value)) else s1;
      if !Filled(s2.last) || (Filled(time) && LexLess(s2.last.value, time.value)) then s2.(last := time)
      else s2
  }

  function Fold(s: Snapshot, data: seq<Record>): (t: Snapshot)
    requires ValidSnapshot(s) && AllTextFields(data)
    ensures ValidSnapshot(t) && t.total == s.total
  {
    if |data| == 0 then s else Step(Fold(s, data[..|data| - 1]), data[|data| - 1])
  }

  /** gui.py's `update_analytics_from_file`: only an existing, readable file rebuilds
      the snapshot. */
  function Refresh(s: Snapshot, f: StoreFile): (t: Snapshot)
    requires ValidSnapshot(s)
    requires f.Holds? ==> AllTextFields(f.records)
    ensures ValidSnapshot(t)
    ensures !f.Holds? ==> t == s
  {
    match f
    case Holds(data) => Fold(Reset(|data|), data)
    case _ => s
  }

  /** gui.py's `analytics_data` global. */
  class Analytics {
    var total: nat
    var perHour: Counter<nat>
    var locations: Counter<string>
    var last: Option<string>

    function View(): Snapshot
      reads this
    {
      Snapshot(total, perHour, locations, last)
    }

    predicate Valid()
      reads this
    {
      ValidSnapshot(View())
    }

    constructor ()
      ensures Valid() && View() == Reset(0)
    {
      total, perHour, locations, last := 0, EmptyCounter(), EmptyCounter(), None;
    }

    method UpdateFromFile(f: StoreFile)
      requires Valid()
      requires f.Holds? ==> AllTextFields(f.records)
      modifies this
      ensures Valid() && View() == Refresh(old(View()), f)
    {
      if f.Holds? {
        var data := f.records;
        total, perHour, locations, last := |data|, EmptyCounter(), EmptyCounter(), None;
        for i := 0 to |data|
          invariant Valid()
          invariant View() == Fold(Reset(|data|), data[..i])
        {
          assert data[..i + 1][..i] == data[..i];
          var incident := data[i];
          var time := TimeOf(incident);
          if Filled(time) {
            var stamp := ParseIncidentTime(time.value);
            if stamp.None? {
              continue;
            }
            perHour := Increment(perHour, stamp.value.hour);
          }
          var loc := LocationOf(incident);
          if Filled(loc) {
            locations := Increment(locations, loc.value);
          }
          if !Filled(last) || (Filled(time) && LexLess(last.value, time.value)) {
            last := time;
          }
        }
        assert data[..|data|] == data;
      }
    }
  }

  /** One entry of the per-hour text: `f"{hour}: {count}"`. */
  function Entry(k: nat, counts: map<nat, nat>): (s: string)
    requires k in counts
    ensures |s| > 0 && IsDigit(s[0])
  {
    NatToString(k) + ": " + NatToString(counts[k])
  }

  /** `", ".join(f"{hour}: {count}" ...)` over the hours in insertion order. */
  function JoinHours(keys: seq<nat>, counts: map<nat, nat>): (s: string)
    requires forall i :: 0 <= i < |keys| ==> keys[i] in counts
    ensures keys != [] ==> |s| > 0 && IsDigit(s[0])
  {
    if |keys| == 0 then ""
    else if |keys| == 1 then Entry(keys[0], counts)
    else Entry(keys[0], counts) + ", " + JoinHours(keys[1..], counts)
  }

  /** The text for one more hour is the text for the others, a `", "` separator when
      there were any, and the new hour's entry: the entries appear in key order. */
  lemma {:induction false} JoinHoursSnoc(keys: seq<nat>, k: nat, counts: map<nat, nat>)
    requires forall i :: 0 <= i < |keys| ==> keys[i] in counts
    requires k in counts
    ensures JoinHours(keys + [k], counts)
      == JoinHours(keys, counts) + (if keys == [] then "" else ", ") + Entry(k, counts)
    decreases |keys|
  {
    if |keys| == 1 {
      assert (keys + [k])[1..] == [k];
    } else if |keys| > 1 {
      assert (keys + [k])[1..] == keys[1..] + [k];
      JoinHoursSnoc(keys[1..], k, counts);
    }
  }

  /** The per-hour text: the joined entries, or `"None"` when there are none. */
  function PerHourText(c: Counter<nat>): (s: string)
    requires Valid(c)
    ensures s == "None" <==> c.keys == []
  {
    var joined := JoinHours(c.keys, c.counts);
    if joined == "" then "None" else joined
  }

  /** The text only reads the counts of the listed hours. */
  lemma {:induction false} JoinHoursFrame(keys: seq<nat>, counts: map<nat, nat>, counts': map<nat, nat>)
    requires forall i :: 0 <= i < |keys| ==> keys[i] in counts && keys[i] in counts'
    requires forall i :: 0 <= i < |keys| ==> counts'[keys[i]] == counts[keys[i]]
    ensures JoinHours(keys, counts') == JoinHours(keys, counts)
    decreases |keys|
  {
    if |keys| > 1 {
      JoinHoursFrame(keys[1..], counts, counts');
    }
  }

  /** The first accident in a new hour adds `"h: 1"` at the end of the per-hour text. */
  lemma PerHourTextNewHour(c: Counter<nat>, h: nat)
    requires Valid(c) && h !in c.counts
    ensures PerHourText(Increment(c, h)) == (if c.keys == [] then "" else PerHourText(c) + ", ") + (NatToString(h) + ": 1")
  {
    var r := Increment(c, h);
    assert r.keys == c.keys + [h] && r.counts == c.counts[h := 1];
    var e := Entry(h, r.counts);
    OneText();
    assert e == NatToString(h) + ": 1";
    var before := JoinHours(c.keys, c.counts);
    JoinHoursSnoc(c.keys, h, r.counts);
    JoinHoursFrame(c.keys, c.counts, r.counts);
    var sep := if c.keys == [] then "" else ", ";
    assert JoinHours(r.keys, r.counts) == before + sep + e;
    assert PerHourText(r) == before + sep + e;
    if c.keys != [] {
      assert PerHourText(c) == before;
    }
  }

  lemma OneText()
    ensures NatToString(1) == "1"
  {
    assert DigitChar(1) == '1';
  }

  /** How many records with the non-empty location `l` are not skipped. */
  function KeptLocationCount(data: seq<Record>, l: string): nat
    requires AllTextFields(data)
  {
    if |data| == 0 then 0
    else
      var r := data[|data| - 1];
      KeptLocationCount(data[..|data| - 1], l) + (if !BadTime(r) && LocationOf(r) == Some(l) && l != "" then 1 else 0)
  }

  /** The total is the number of stored records. */
  lemma TotalIsRecordCount(s: Snapshot, data: seq<Record>)
    requires ValidSnapshot(s) && AllTextFields(data)
    ensures Refresh(s, Holds(data)).total == |data|
  {
  }

  /** A record with a non-empty unparseable time changes nothing. */
  lemma BadTimeSkipped(s: Snapshot, r: Record)
    requires ValidSnapshot(s) && TextFields(r) && BadTime(r)
    ensures Step(s, r) == s
  {
  }

  /** A missing file, or one whose text does not decode, leaves the statistics as they were. */
  lemma MissingFileKeeps(s: Snapshot)
    requires ValidSnapshot(s)
    ensures Refresh(s, Missing) == s && Refresh(s, Unreadable) == s
  {
  }

  /** Both revisions build the same per-hour counter from the same records. */
  lemma {:induction false} PerHourAgrees(s: Snapshot, data: seq<Record>)
    requires ValidSnapshot(s) && AllTextFields(data)
    ensures Fold(s, data).perHour == Dashboard.Fold(s, data).perHour
  {
    if |data| > 0 {
      PerHourAgrees(s, data[..|data| - 1]);
    }
  }

  /** Each record whose time parses adds one to the count of its hour. */
  lemma PerHourCounts(s: Snapshot, data: seq<Record>, h: nat)
    requires ValidSnapshot(s) && AllTextFields(data)
    ensures Count(Fold(s, data).perHour, h) == Count(s.perHour, h) + Dashboard.HourCount(data, h)
  {
    PerHourAgrees(s, data);
    Dashboard.PerHourCounts(s, data, h);
  }

  /** A location is counted once per record that names it and is not skipped. */
  lemma {:induction false} LocationCounts(s: Snapshot, data: seq<Record>, l: string)
    requires ValidSnapshot(s) && AllTextFields(data)
    ensures Count(Fold(s, data).locations, l) == Count(s.locations, l) + KeptLocationCount(data, l)
  {
    if |data| > 0 {
      LocationCounts(s, data[..|data| - 1], l);
    }
  }

  /** Without unparseable times, both revisions count the same locations. */
  lemma {:induction false} LocationsAgreeWithoutBadTimes(s: Snapshot, data: seq<Record>)
    requires ValidSnapshot(s) && AllTextFields(data)
    requires forall i :: 0 <= i < |data| ==> !BadTime(data[i])
    ensures Fold(s, data).locations == Dashboard.Fold(s, data).locations
  {
    if |data| > 0 {
      LocationsAgreeWithoutBadTimes(s, data[..|data| - 1]);
    }
  }

  /** The record `{"Time": "soon", "Location": "Main St"}`. */
  function UnparseableSample(): (r: Record)
    ensures TextFields(r)
  {
    map["Time" := Text("soon"), "Location" := Text("Main St")]
  }

  /** The revisions differ on a record with an unparseable time: tempCodeRunnerFile.py
      counts its location, gui.py does not. */
  lemma LocationsDifferOnBadTime()
    ensures Count(Dashboard.Fold(Reset(1), [UnparseableSample()]).locations, "Main St") == 1
    ensures Count(Fold(Reset(1), [UnparseableSample()]).locations, "Main St") == 0
  {
    var r := UnparseableSample();
    var s := "soon";
    assert TimeOf(r) == Some(s);
    assert DigitRun(s, 0, 4) == 0 && DigitRun(s, 0, 2) == 0;
    assert !Parseable(s);
    assert [r][..0] == [];
  }

  /** After a reset, the last time is the lexicographically greatest non-empty parseable
      time when there is one, and falsy (`None` or `""`) otherwise. */
  lemma {:induction false} LastIsLexMax(n: nat, data: seq<Record>)
    requires AllTextFields(data)
    ensures Dashboard.StampedTimes(data) == {} ==> !Filled(Fold(Reset(n), data).last)
    ensures Dashboard.StampedTimes(data) != {} ==>
              Fold(Reset(n), data).last.Some? && Dashboard.IsLexMax(Fold(Reset(n), data).last.value, Dashboard.StampedTimes(data))
  {
    if |data| > 0 {
      var front := data[..|data| - 1];
      var r := data[|data| - 1];
      LastIsLexMax(n, front);
      assert data == front + [r];
      Dashboard.StampedTimesSnoc(front, r);
      var before := Fold(Reset(n), front).last;
      var times := Dashboard.StampedTimes(front);
      if Dashboard.Stamped(r) {
        var last := if times == {} then None else before;
        if before.Some? && times != {} {
          Dashboard.StampedTimesFilled(front, before.value);
        }
        Dashboard.KeepMax(last, TimeOf(r).value, times);
      }
    }
  }

  /** When some time parses, both revisions report the same last time. */
  lemma LastAgrees(n: nat, data: seq<Record>)
    requires AllTextFields(data)
    requires Dashboard.StampedTimes(data) != {}
    ensures Fold(Reset(n), data).last == Dashboard.Fold(Reset(n), data).last
  {
    LastIsLexMax(n, data);
    Dashboard.LastIsLexMax(n, data);
    Dashboard.LexMaxUnique(Fold(Reset(n), data).last.value, Dashboard.Fold(Reset(n), data).last.value,
      Dashboard.StampedTimes(data));
  }

  /** Both revisions show the same last-incident label for every stored list of records. */
  lemma LabelsAgree(n: nat, data: seq<Record>)
    requires AllTextFields(data)
    ensures LastTimeLabel(Fold(Reset(n), data).last) == LastTimeLabel(Dashboard.Fold(Reset(n), data).last)
  {
    LastIsLexMax(n, data);
    Dashboard.LastIsLexMax(n, data);
    if Dashboard.StampedTimes(data) != {} {
      LastAgrees(n, data);
    }
  }

  /** Clearing the file (`[]`) resets both revisions' statistics. */
  lemma ClearResets(s: Snapshot)
    requires ValidSnapshot(s)
    ensures Refresh(s, Holds([])) == Reset(0)
    ensures Dashboard.Refresh(s, Holds([])) == Reset(0)
  {
  }
}

=== FILE: records.dfy ===
/** Incident records as the program handles them: flat JSON objects whose
    values are table-cell strings, coordinates or the list of detail lines. */
module Records {
  import opened Wrappers
  import opened Strings

  /** A field value. Coordinates keep the decimal numeral they were scraped as. */
  datatype Value =
    | Text(text: string)
    | Number(numeral: string)
    | TextList(items: seq<string>)

  /** One incident: field name to value (a Python dict). */
  type Record = map<string, Value>

  /** Python's `d.get(key)`: the value, or `None` when the key is absent. */
  function Get(r: Record, key: string): (v: Option<Value>)
    ensures v.Some? <==> key in r
    ensures v.Some? ==> v.value == r[key]
  {
    if key in r then Some(r[key]) else None
  }

  /** A numeral denotes zero when it has no non-zero digit. */
  predicate IsZeroNumeral(n: string) {
    forall i :: 0 <= i < |n| ==> !('1' <= n[i] <= '9')
  }

  /** Python truthiness of a field value: empty strings and lists and zero are false. */
  predicate Truthy(v: Value) {
    match v
    case Text(s) => s != ""
    case Number(n) => !IsZeroNumeral(n)
    case TextList(items) => items != []
  }

  /** Python truthiness of `d.get(key)`: `None` is false. */
  predicate TruthyGet(v: Option<Value>) {
    v.Some? && Truthy(v.value)
  }

  /** Python's `repr` of a list of strings, without escape handling. */
  function ListRepr(items: seq<string>): (s: string)
    ensures |s| >= 2 && s[0] == '[' && s[|s| - 1] == ']'
  {
    "[" + QuotedItems(items) + "]"
  }

  function QuotedItems(items: seq<string>): string
  {
    if |items| == 0 then ""
    else if |items| == 1 then "'" + items[0] + "'"
    else "'" + items[0] + "', " + QuotedItems(items[1..])
  }

  /** An f-string field `{d.get(key)}`: the text, or `"None"` for an absent key. */
  function Render(v: Option<Value>): (s: string)
    ensures v == None ==> s == "None"
    ensures v.Some? && v.value.Text? ==> s == v.value.text
  {
    match v
    case None => "None"
    case Some(Text(t)) => t
    case Some(Number(n)) => n
    case Some(TextList(items)) => ListRepr(items)
  }

  /** Python's `str(value)` is a string for the two fields the statistics read. */
  predicate TextFields(r: Record) {
    && ("Time" in r ==> r["Time"].Text?)
    && ("Location" in r ==> r["Location"].Text?)
  }

  predicate AllTextFields(data: seq<Record>) {
    forall i :: 0 <= i < |data| ==> TextFields(data[i])
  }

  /** The `"Time"` field as text, `None` when absent. */
  function TimeOf(r: Record): (t: Option<string>)
    requires TextFields(r)
    ensures t.Some? <==> "Time" in r
  {
    if "Time" in r then Some(r["Time"].text) else None
  }

  /** The `"Location"` field as text, `None` when absent. */
  function LocationOf(r: Record): (l: Option<string>)
    requires TextFields(r)
    ensures l.Some? <==> "Location" in r
  {
    if "Location" in r then Some(r["Location"].text) else None
  }

  /** Python truthiness of an optional string. */
  predicate Filled(s: Option<string>) {
    s.Some? && s.value != ""
  }

  /** The JSON file of posted records (`previous_data.json`): absent, holding
      text that does not decode as JSON, or holding a list of records. */
  datatype StoreFile = Missing | Unreadable | Holds(records: seq<Record>)
}

=== FILE: scraper.dfy ===
/** traffic_scraper.py once the HTML has been reduced to strings: the first table
    row as a record (with the "Media Log" rejection), the `__VIEWSTATE` search, the
    coordinate scan with its six-fractional-digit filter, the detail-line cleanup,
    and the merge of table row and coordinates. */
module Scraper {
  import opened Wrappers
  import opened Strings
  import opened Records

  // ---------------------------------------------------------------- scrape_table

  /** What `scrape_table` yields: an `IndexError` when the row has no cell under the
      "Location" header, `None` for a "Media Log" row, or the row as a record. */
  datatype Table = TableRaised | MediaLog | Row(fields: Record)

  /** `headers.index(x)`. */
  function IndexOf(s: seq<string>, x: string): (i: nat)
    requires x in s
    ensures i < |s| && s[i] == x
    ensures forall j :: 0 <= j < i ==> s[j] != x
  {
    if s[0] == x then 0 else 1 + IndexOf(s[1..], x)
  }

  /** `dict(zip(headers[:n], cells[:n]))`: later repeats of a header overwrite earlier ones. */
  function ZipUpTo(headers: seq<string>, cells: seq<string>, n: nat): (d: Record)
    requires n <= |headers| && n <= |cells|
    ensures forall k :: k in d <==> k in headers[..n]
  {
    if n == 0 then map[]
    else
      assert headers[..n] == headers[..n - 1] + [headers[n - 1]];
      ZipUpTo(headers, cells, n - 1)[headers[n - 1] := Text(cells[n - 1])]
  }

  /** The header at its last paired occurrence `j` maps to the cell at `j`. */
  lemma {:induction false} ZipUpToLast(headers: seq<string>, cells: seq<string>, n: nat, j: nat)
    requires j < n <= |headers| && n <= |cells| && LastAt(headers, n, j)
    ensures ZipUpTo(headers, cells, n)[headers[j]] == Text(cells[j])
  {
    if j < n - 1 {
      assert headers[n - 1] != headers[j];
      ZipUpToLast(headers, cells, n - 1, j);
    }
  }

  /** No header after index `j` (and before `n`) repeats the header at `j`. */
  predicate LastAt(headers: seq<string>, n: nat, j: nat)
    requires j < n <= |headers|
  {
    forall j' :: j < j' < n ==> headers[j'] != headers[j]
  }

  function Min(a: nat, b: nat): nat {
    if a <= b then a else b
  }

  /** `dict(zip(headers, cells))`: pairing stops at the shorter list. */
  function Zip(headers: seq<string>, cells: seq<string>): (d: Record)
  {
    ZipUpTo(headers, cells, Min(|headers|, |cells|))
  }

  /** `scrape_table` from the header texts and the first row's cell texts. */
  function ScrapeTable(headers: seq<string>, cells: seq<string>): (t: Table)
    ensures t == MediaLog <==>
              "Location" in headers && IndexOf(headers, "Location") < |cells|
              && cells[IndexOf(headers, "Location")] == "Media Log"
    ensures t == TableRaised <==> "Location" in headers && IndexOf(headers, "Location") >= |cells|
    ensures t.Row? ==> t.fields == Zip(headers, cells)
  {
    if "Location" in headers then
      var i := IndexOf(headers, "Location");
      if i >= |cells| then TableRaised
      else if cells[i] == "Media Log" then MediaLog
      else Row(Zip(headers, cells))
    else Row(Zip(headers, cells))
  }

  /** The row's keys are the paired headers, and each header maps to the cell under its
      last paired occurrence. */
  lemma ZipFields(headers: seq<string>, cells: seq<string>, j: nat)
    requires j < Min(|headers|, |cells|) && LastAt(headers, Min(|headers|, |cells|), j)
    ensures Zip(headers, cells).Keys == set i | 0 <= i < Min(|headers|, |cells|) :: headers[i]
    ensures Zip(headers, cells)[headers[j]] == Text(cells[j])
  {
    var n := Min(|headers|, |cells|);
    ZipUpToLast(headers, cells, n, j);
    forall k | k in Zip(headers, cells) ensures k in set i | 0 <= i < n :: headers[i] {
      var i :| 0 <= i < n && headers[..n][i] == k;
      assert headers[i] == k;
    }
    forall i | 0 <= i < n ensures headers[i] in Zip(headers, cells) {
      assert headers[..n][i] == headers[i];
    }
  }

  // ---------------------------------------------------------------- get_viewstate

  /** The literal `lit` at `i`; the index after it. */
  function Lit(s: string, i: nat, lit: string): (r: Option<nat>)
    requires i <= |s|
    ensures r.Some? ==> r.value == i + |lit| <= |s| && s[i..r.value] == lit
  {
    if OccursAt(s, lit, i) then Some(i + |lit|) else None
  }

  /** `\s+` at `i`. */
  function Blanks(s: string, i: nat): (r: Option<nat>)
    requires i <= |s|
    ensures r.Some? ==> i < r.value <= |s|
  {
    var j := SkipSpaces(s, i);
    if j == i then None else Some(j)
  }

  /** The end of the run of non-quote characters starting at `i` (`[^"]*`). */
  function QuoteFree(s: string, i: nat): (j: nat)
    requires i <= |s|
    ensures i <= j <= |s|
    ensures forall k :: i <= k < j ==> s[k] != '"'
    ensures j == |s| || s[j] == '"'
    decreases |s| - i
  {
    if i == |s| || s[i] == '"' then i else QuoteFree(s, i + 1)
  }

  /** The `__VIEWSTATE` input pattern matched at `i`:
      `<input\s+type="hidden"\s+name="__VIEWSTATE"\s+id="__VIEWSTATE"\s+value="([^"]+)"\s*\/?>`;
      the captured value. */
  function ViewstateAt(s: string, i: nat): (r: Option<string>)
    requires i <= |s|
    ensures r.Some? ==> r.value != [] && forall k :: 0 <= k < |r.value| ==> r.value[k] != '"'
  {
    var start :- OpenTag(s, i);
    ValueAt(s, start)
  }

  /** The literals of the pattern before the captured value, in order. */
  const OpenLits: seq<string> :=
    ["<input", "type=\"hidden\"", "name=\"__VIEWSTATE\"", "id=\"__VIEWSTATE\"", "value=\""]

  /** The literals `lits` at `i`, consecutive ones separated by `\s+`; the index after the last. */
  function Spaced(s: string, i: nat, lits: seq<string>): (r: Option<nat>)
    requires i <= |s|
    ensures r.Some? ==> i <= r.value <= |s|
    decreases |lits|
  {
    if lits == [] then Some(i)
    else
      var p :- Lit(s, i, lits[0]);
      if |lits| == 1 then Some(p)
      else
        var q :- Blanks(s, p);
        Spaced(s, q, lits[1..])
  }

  /** The part of the pattern before the captured value; the index where the value starts. */
  function OpenTag(s: string, i: nat): (r: Option<nat>)
    requires i <= |s|
    ensures r.Some? ==> r.value <= |s|
  {
    Spaced(s, i, OpenLits)
  }

  /** `([^"]+)"\s*\/?>` at `p9`; the captured value. */
  function ValueAt(s: string, p9: nat): (r: Option<string>)
    requires p9 <= |s|
    ensures r.Some? ==> r.value != [] && forall k :: 0 <= k < |r.value| ==> r.value[k] != '"'
  {
    var e := QuoteFree(s, p9);
    var p10 :- Lit(s, e, "\"");
    var p11 := SkipSpaces(s, p10);
    var p12 := if p11 < |s| && s[p11] == '/' then p11 + 1 else p11;
    var _ :- Lit(s, p12, ">");
    if e == p9 then None else Some(s[p9..e])
  }

  /** No match starts at an index in `[i, k)`. */
  predicate NoViewstateIn(s: string, i: nat, k: nat)
    requires k <= |s| + 1
  {
    forall j :: i <= j < k ==> ViewstateAt(s, j).None?
  }

  /** The leftmost position at or after `i` where the pattern matches; `|s| + 1` when none does. */
  function ViewstateIndex(s: string, i: nat): (k: nat)
    requires i <= |s|
    ensures i <= k <= |s| + 1
    ensures NoViewstateIn(s, i, k)
    ensures k <= |s| ==> ViewstateAt(s, k).Some?
    decreases |s| - i
  {
    if ViewstateAt(s, i).Some? then i
    else if i == |s| then |s| + 1
    else
      var k := ViewstateIndex(s, i + 1);
      NoViewstateBefore(s, i, k);
      k
  }

  lemma NoViewstateBefore(s: string, i: nat, k: nat)
    requires i < k <= |s| + 1 && ViewstateAt(s, i).None? && NoViewstateIn(s, i + 1, k)
    ensures NoViewstateIn(s, i, k)
  {
  }

  /** `re.search` from index `i` on: the value at the leftmost matching position. */
  function SearchViewstate(s: string, i: nat): (r: Option<string>)
    requires i <= |s|
    ensures r.None? <==> NoViewstateIn(s, i, |s| + 1)
    ensures r.Some? ==> ViewstateIndex(s, i) <= |s| && r == ViewstateAt(s, ViewstateIndex(s, i))
  {
    var k := ViewstateIndex(s, i);
    if k <= |s| then ViewstateAt(s, k) else None
  }

  /** `get_viewstate`: the value of the first hidden `__VIEWSTATE` input, or `None`. */
  function GetViewstate(page: string): (r: Option<string>)
    ensures r.None? <==> NoViewstateIn(page, 0, |page| + 1)
    ensures r.Some? ==> r == ViewstateAt(page, ViewstateIndex(page, 0)) && NoViewstateIn(page, 0, ViewstateIndex(page, 0))
  {
    SearchViewstate(page, 0)
  }

  /** The literals joined by single spaces. */
  function Joined(lits: seq<string>): (t: string)
    ensures lits != [] && lits[0] != [] ==> t != [] && t[0] == lits[0][0]
    decreases |lits|
  {
    if lits == [] then []
    else if |lits| == 1 then lits[0]
    else lits[0] + " " + Joined(lits[1..])
  }

  /** The hidden input as ASP.NET writes it, up to the value. */
  const ViewstateOpen: string := Joined(OpenLits)

  /** The whole hidden input around the value `v`. */
  function ViewstateTag(v: string): string {
    ViewstateOpen + v + "\" />"
  }

  lemma LitBetween(s: string, a: string, lit: string, b: string)
    requires s == a + lit + b
    ensures Lit(s, |a|, lit) == Some(|a| + |lit|)
  {
    assert s[|a|..|a| + |lit|] == lit;
  }

  lemma BlankBetween(s: string, a: string, b: string)
    requires s == a + " " + b && b != [] && !IsSpace(b[0])
    ensures Blanks(s, |a|) == Some(|a| + 1)
  {
    assert s[|a|] == ' ' && s[|a| + 1] == b[0];
  }

  /** None of the literals is empty or starts with whitespace. */
  predicate Unspaced(lits: seq<string>) {
    forall k :: 0 <= k < |lits| ==> lits[k] != [] && !IsSpace(lits[k][0])
  }

  /** Literals written out with single spaces match the spaced pattern, whatever follows. */
  lemma {:induction false} JoinedMatches(s: string, a: string, lits: seq<string>, t: string)
    requires Unspaced(lits) && s == a + Joined(lits) + t
    ensures Spaced(s, |a|, lits) == Some(|a| + |Joined(lits)|)
    decreases |lits|
  {
    if |lits| == 1 {
      LitBetween(s, a, lits[0], t);
    } else if |lits| > 1 {
      var l, rest := lits[0], Joined(lits[1..]);
      assert Joined(lits) == l + " " + rest;
      UnspacedTail(lits);
      assert rest != [] && rest[0] == lits[1][0] && !IsSpace(rest[0]);
      assert (rest + t)[0] == rest[0];
      SplitJoined(a, l, rest, t);
      assert s == a + l + (" " + rest + t);
      LitBetween(s, a, l, " " + rest + t);
      assert s == (a + l) + " " + (rest + t);
      BlankBetween(s, a + l, rest + t);
      assert s == (a + l + " ") + rest + t;
      JoinedMatches(s, a + l + " ", lits[1..], t);
      SpacedStep(s, |a|, lits);
    }
  }

  lemma UnspacedTail(lits: seq<string>)
    requires Unspaced(lits) && |lits| > 1
    ensures Unspaced(lits[1..]) && lits[1] != [] && !IsSpace(lits[1][0])
  {
    assert forall k :: 0 <= k < |lits| - 1 ==> lits[1..][k] == lits[k + 1];
  }

  lemma SplitJoined(a: string, l: string, rest: string, t: string)
    ensures a + (l + " " + rest) + t == a + l + (" " + rest + t)
    ensures a + (l + " " + rest) + t == (a + l) + " " + (rest + t)
    ensures a + (l + " " + rest) + t == (a + l + " ") + rest + t
  {
  }

  /** One literal and its separating blanks, then the remaining literals. */
  lemma SpacedStep(s: string, i: nat, lits: seq<string>)
    requires i <= |s| && |lits| > 1
    requires Lit(s, i, lits[0]).Some? && Blanks(s, i + |lits[0]|).Some?
    ensures Spaced(s, i, lits) == Spaced(s, Blanks(s, i + |lits[0]|).value, lits[1..])
  {
  }

  /** Text that starts with the opening of the hidden input has its value start right after it. */
  lemma OpenTagPrefix(t: string)
    ensures OpenTag(ViewstateOpen + t, 0) == Some(|ViewstateOpen|)
  {
    assert ViewstateOpen + t == [] + Joined(OpenLits) + t;
    JoinedMatches(ViewstateOpen + t, [], OpenLits, t);
  }

  /** A quote-free value followed by the closing of the tag is captured whole. */
  lemma ValueAtClose(p: string, v: string, rest: string)
    requires v != [] && forall k :: 0 <= k < |v| ==> v[k] != '"'
    ensures ValueAt(p + v + "\" />" + rest, |p|) == Some(v)
  {
    var s := p + v + "\" />" + rest;
    var e := |p| + |v|;
    assert s[|p|..e] == v;
    QuoteFreeOver(s, |p|, e);
    ClosingAt(p + v, rest);
  }

  lemma QuoteFreeOver(s: string, i: nat, e: nat)
    requires i <= e < |s| && s[e] == '"' && forall k :: 0 <= k < e - i ==> s[i..e][k] != '"'
    ensures QuoteFree(s, i) == e
  {
    assert forall k :: i <= k < e ==> s[k] == s[i..e][k - i];
  }

  /** `"\s*\/?>` matches at the end of `a` in `a + "\" />" + rest`. */
  lemma ClosingAt(a: string, rest: string)
    ensures var s := a + "\" />" + rest;
      Lit(s, |a|, "\"") == Some(|a| + 1) && SkipSpaces(s, |a| + 1) == |a| + 2
      && |a| + 2 < |s| && s[|a| + 2] == '/' && Lit(s, |a| + 3, ">") == Some(|a| + 4)
  {
    var s := a + "\" />" + rest;
    assert s[|a|] == '"' && s[|a| + 1] == ' ' && s[|a| + 2] == '/' && s[|a| + 3] == '>';
    assert s[|a|..|a| + 1] == "\"";
    assert s[|a| + 3..|a| + 4] == ">";
  }

  /** A page that starts with the hidden input yields its value. */
  lemma ViewstateRoundTrip(v: string, rest: string)
    requires v != [] && forall k :: 0 <= k < |v| ==> v[k] != '"'
    ensures GetViewstate(ViewstateTag(v) + rest) == Some(v)
  {
    var s := ViewstateTag(v) + rest;
    assert s == ViewstateOpen + (v + "\" />" + rest);
    OpenTagPrefix(v + "\" />" + rest);
    ValueAtClose(ViewstateOpen, v, rest);
    assert s == ViewstateOpen + v + "\" />" + rest;
    assert ViewstateAt(s, 0) == Some(v);
  }

  // ---------------------------------------------------------------- extract_traffic_info

  /** The end of the maximal run of digits starting at `i` (`\d*`). */
  function DigitsEnd(s: string, i: nat): (j: nat)
    requires i <= |s|
    ensures i <= j <= |s|
    ensures forall k :: i <= k < j ==> IsDigit(s[k])
    ensures j == |s| || !IsDigit(s[j])
    decreases |s| - i
  {
    if i == |s| || !IsDigit(s[i]) then i else DigitsEnd(s, i + 1)
  }

  /** `\d+\.\d+` at `i`; the index after it. */
  function Decimal(s: string, i: nat): (r: Option<nat>)
    requires i <= |s|
    ensures r.Some? ==> i < r.value <= |s|
  {
    var a := DigitsEnd(s, i);
    if a == i || a == |s| || s[a] != '.' then None
    else
      var b := DigitsEnd(s, a + 1);
      if b == a + 1 then None else Some(b)
  }

  /** `\d+\.\d+` as a whole: digits on both sides of a single dot. */
  predicate IsDecimalText(x: string) {
    exists d :: 0 < d < |x| - 1 && x[d] == '.' && forall k :: 0 <= k < |x| && k != d ==> IsDigit(x[k])
  }

  /** What `Decimal` reads is a decimal numeral. */
  lemma DecimalShape(s: string, i: nat)
    requires i <= |s| && Decimal(s, i).Some?
    ensures IsDecimalText(s[i..Decimal(s, i).value])
  {
    var a := DigitsEnd(s, i);
    var x := s[i..Decimal(s, i).value];
    assert x[a - i] == '.';
    assert forall k :: 0 <= k < |x| && k != a - i ==> IsDigit(x[k]);
  }

  /** A latitude/longitude pair as the scan finds it. */
  datatype LatLon = LatLon(lat: string, lon: string)

  /** The shape of a matched pair: a decimal latitude, and a minus sign before a decimal longitude. */
  predicate PairShape(p: LatLon) {
    IsDecimalText(p.lat) && |p.lon| > 0 && p.lon[0] == '-' && IsDecimalText(p.lon[1..])
  }

  /** `(\d+\.\d+ -\d+\.\d+)` at `i`: the pair (as `match.split()` separates it) and the
      index after the match. */
  function LatLonAt(s: string, i: nat): (r: Option<(LatLon, nat)>)
    requires i <= |s|
    ensures r.Some? ==> i < r.value.1 <= |s|
    ensures r.Some? ==> s[i..r.value.1] == r.value.0.lat + " " + r.value.0.lon && PairShape(r.value.0)
  {
    var e1 :- Decimal(s, i);
    var p :- Lit(s, e1, " -");
    var e2 :- Decimal(s, p);
    DecimalShape(s, i);
    DecimalShape(s, p);
    assert p == e1 + 2 && s[e1] == ' ' && s[e1 + 1] == '-';
    assert s[e1 + 1..e2][1..] == s[p..e2];
    assert s[i..e2] == s[i..e1] + " " + s[e1 + 1..e2];
    Some((LatLon(s[i..e1], s[e1 + 1..e2]), e2))
  }

  /** `LAT_LON_PATTERN.findall(s[i:])`: non-overlapping matches, left to right. */
  function FindLatLons(s: string, i: nat): (r: seq<LatLon>)
    requires i <= |s|
    ensures |r| <= |s| - i
    ensures LatLonAt(s, i).Some? ==> r != [] && r[0] == LatLonAt(s, i).value.0
    decreases |s| - i
  {
    if i == |s| then []
    else match LatLonAt(s, i)
      case Some((pair, e)) => [pair] + FindLatLons(s, e)
      case None => FindLatLons(s, i + 1)
  }

  /** Every pair `findall` returns has the matched shape. */
  lemma {:induction false} FindLatLonsShape(s: string, i: nat)
    requires i <= |s|
    ensures forall k :: 0 <= k < |FindLatLons(s, i)| ==> PairShape(FindLatLons(s, i)[k])
    decreases |s| - i
  {
    if i < |s| {
      match LatLonAt(s, i)
      case Some((pair, e)) => FindLatLonsShape(s, e);
      case None => FindLatLonsShape(s, i + 1);
    }
  }

  /** `x.split('.')[-1]`: what follows the last dot, or all of `x`. */
  function AfterLastDot(x: string): (f: string)
    ensures |f| <= |x|
    ensures forall k :: 0 <= k < |f| ==> f[k] != '.'
  {
    if |x| == 0 then []
    else if x[|x| - 1] == '.' then []
    else AfterLastDot(x[..|x| - 1]) + [x[|x| - 1]]
  }

  /** Both parts have exactly six fractional digits. */
  predicate Precise(p: LatLon) {
    |AfterLastDot(p.lat)| == 6 && |AfterLastDot(p.lon)| == 6
  }

  /** No pair before index `k` is precise. */
  predicate NonePreciseBefore(ms: seq<LatLon>, k: nat)
    requires k <= |ms|
  {
    forall j :: 0 <= j < k ==> !Precise(ms[j])
  }

  /** The index of the first pair with six fractional digits in both parts, or `|ms|`. */
  function FirstPreciseIndex(ms: seq<LatLon>): (k: nat)
    ensures k <= |ms| && NonePreciseBefore(ms, k)
    ensures k < |ms| ==> Precise(ms[k])
  {
    if |ms| == 0 || Precise(ms[0]) then 0
    else
      var k := FirstPreciseIndex(ms[1..]);
      assert forall j :: 1 <= j < |ms| ==> ms[j] == ms[1..][j - 1];
      k + 1
  }

  /** The first pair of `ms` with six fractional digits in both parts. */
  function FirstPrecise(ms: seq<LatLon>): (r: Option<LatLon>)
    ensures r.None? <==> forall k :: 0 <= k < |ms| ==> !Precise(ms[k])
  {
    var k := FirstPreciseIndex(ms);
    if k < |ms| then Some(ms[k]) else None
  }

  /** `[...]` with no newline inside closes somewhere in `t` (`t` starts after the `[`). */
  predicate Closes(t: string) {
    if t == [] then false
    else if t[0] == ']' then true
    else if t[0] == '\n' then false
    else Closes(t[1..])
  }

  /** What follows the first `]` of a string that `Closes`. */
  function AfterClose(t: string): (u: string)
    requires Closes(t)
    ensures |u| < |t|
  {
    if t[0] == ']' then t[1..] else AfterClose(t[1..])
  }

  /** `BRACKETS_PATTERN.sub('', t)` for `\[.*?\]`: each `[` that closes before the next
      newline is removed up to and including its first `]`. */
  function StripBrackets(t: string): (r: string)
    ensures |r| <= |t|
    decreases |t|
  {
    if t == [] then []
    else if t[0] == '[' && Closes(t[1..]) then StripBrackets(AfterClose(t[1..]))
    else [t[0]] + StripBrackets(t[1..])
  }

  /** No `[` of `r` is closed by a `]` before a newline. */
  predicate NoSegment(r: string) {
    forall p :: 0 <= p < |r| && r[p] == '[' ==> !Closes(r[p + 1..])
  }

  lemma {:induction false} StripKeepsOpen(t: string)
    requires !Closes(t)
    ensures !Closes(StripBrackets(t))
    decreases |t|
  {
    if t != [] && t[0] != '\n' {
      StripKeepsOpen(t[1..]);
      var r := StripBrackets(t);
      assert r == [t[0]] + StripBrackets(t[1..]);
      assert r[1..] == StripBrackets(t[1..]);
    }
  }

  /** After the substitution no bracket segment within one line is left. */
  lemma {:induction false} StripBracketsComplete(t: string)
    ensures NoSegment(StripBrackets(t))
    decreases |t|
  {
    if t != [] {
      if t[0] == '[' && Closes(t[1..]) {
        StripBracketsComplete(AfterClose(t[1..]));
      } else {
        var tail := StripBrackets(t[1..]);
        StripBracketsComplete(t[1..]);
        var r := [t[0]] + tail;
        assert r == StripBrackets(t);
        forall p | 0 <= p < |r| && r[p] == '[' ensures !Closes(r[p + 1..]) {
          if p == 0 {
            StripKeepsOpen(t[1..]);
            assert r[1..] == tail;
          } else {
            assert r[p + 1..] == tail[p..];
            assert tail[p - 1] == '[';
          }
        }
      }
    }
  }

  /** Text with no bracket segment is left as it is, so the substitution is idempotent. */
  lemma {:induction false} StripBracketsFixed(t: string)
    requires NoSegment(t)
    ensures StripBrackets(t) == t
    decreases |t|
  {
    if t != [] {
      assert NoSegment(t[1..]) by {
        forall p | 0 <= p < |t[1..]| && t[1..][p] == '[' ensures !Closes(t[1..][p + 1..]) {
          assert t[1..][p + 1..] == t[p + 2..];
        }
      }
      StripBracketsFixed(t[1..]);
    }
  }

  lemma StripBracketsIdempotent(t: string)
    ensures StripBrackets(StripBrackets(t)) == StripBrackets(t)
  {
    StripBracketsComplete(t);
    StripBracketsFixed(StripBrackets(t));
  }

  /** Text before the first `[` survives the substitution unchanged. */
  lemma {:induction false} StripBracketsKeepsPlain(u: string, v: string)
    requires forall k :: 0 <= k < |u| ==> u[k] != '['
    ensures StripBrackets(u + v) == u + StripBrackets(v)
    decreases |u|
  {
    if u != [] {
      assert (u + v)[1..] == u[1..] + v;
      StripBracketsKeepsPlain(u[1..], v);
      assert u == [u[0]] + u[1..];
    } else {
      assert u + v == v;
    }
  }

  /** A segment body without `]` or newline closes at the `]` after it, and what follows it is what is left. */
  lemma {:induction false} ClosesAfterBody(m: string, v: string)
    requires forall k :: 0 <= k < |m| ==> m[k] != ']' && m[k] != '\n'
    ensures Closes(m + "]" + v) && AfterClose(m + "]" + v) == v
    decreases |m|
  {
    if m == [] {
      assert m + "]" + v == "]" + v;
      assert ("]" + v)[1..] == v;
    } else {
      assert (m + "]" + v)[1..] == m[1..] + "]" + v;
      ClosesAfterBody(m[1..], v);
    }
  }

  /** The shortest segment `[m]` starting at the front is removed, and nothing after it. */
  lemma StripBracketsDropsSegment(m: string, v: string)
    requires forall k :: 0 <= k < |m| ==> m[k] != ']' && m[k] != '\n'
    ensures StripBrackets("[" + m + "]" + v) == StripBrackets(v)
  {
    var t := "[" + m + "]" + v;
    assert t[0] == '[' && t[1..] == m + "]" + v;
    ClosesAfterBody(m, v);
  }

  /** A `[` that no `]` closes before a newline is kept. */
  lemma StripBracketsKeepsUnclosed(v: string)
    requires !Closes(v)
    ensures StripBrackets("[" + v) == "[" + StripBrackets(v)
  {
    assert ("[" + v)[1..] == v;
  }

  lemma {:induction false} ClosesExtends(t: string, k: nat)
    requires k <= |t| && Closes(t[..k])
    ensures Closes(t)
  {
    assert t[..k][1..] == t[1..][..k - 1];
    if t[0] != ']' {
      ClosesExtends(t[1..], k - 1);
    }
  }

  /** A slice of text without bracket segments has none either. */
  lemma NoSegmentSlice(r: string, i: nat, j: nat)
    requires i <= j <= |r| && NoSegment(r)
    ensures NoSegment(r[i..j])
  {
    var u := r[i..j];
    forall p | 0 <= p < |u| && u[p] == '[' ensures !Closes(u[p + 1..]) {
      assert r[i + p] == '[';
      assert u[p + 1..] == r[i + p + 1..][..j - (i + p + 1)];
      if Closes(u[p + 1..]) {
        ClosesExtends(r[i + p + 1..], j - (i + p + 1));
      }
    }
  }

  /** `BRACKETS_PATTERN.sub('', match).strip()`. */
  function CleanDetail(t: string): (d: string)
    ensures NoSegment(d)
    ensures d == [] || (!IsSpace(d[0]) && !IsSpace(d[|d| - 1]))
  {
    var r := StripBrackets(t);
    StripBracketsComplete(t);
    var d := Strip(r);
    var i, j :| 0 <= i <= j <= |r| && d == r[i..j];
    NoSegmentSlice(r, i, j);
    d
  }

  /** A detail cleans to its text outside the first shortest segment, stripped: the text
      before the segment is kept and the text after it is cleaned in turn. */
  lemma CleanDetailDropsSegment(u: string, m: string, w: string)
    requires forall k :: 0 <= k < |u| ==> u[k] != '['
    requires forall k :: 0 <= k < |m| ==> m[k] != ']' && m[k] != '\n'
    ensures CleanDetail(u + ("[" + m + "]" + w)) == Strip(u + StripBrackets(w))
  {
    StripBracketsKeepsPlain(u, "[" + m + "]" + w);
    StripBracketsDropsSegment(m, w);
  }

  /** A detail mentions one of `EXCLUDED_DETAILS`. */
  predicate Excluded(d: string) {
    Contains(d, "Unit At Scene") || Contains(d, "Unit Enroute") || Contains(d, "Unit Assigned")
  }

  /** The cleaned detail cells that mention no excluded phrase, in source order. */
  function CleanDetails(cells: seq<string>): (ds: seq<string>)
    ensures forall k :: 0 <= k < |ds| ==> !Excluded(ds[k]) && NoSegment(ds[k])
  {
    if |cells| == 0 then []
    else
      var ds := CleanDetails(cells[..|cells| - 1]);
      var d := CleanDetail(cells[|cells| - 1]);
      if Excluded(d) then ds else ds + [d]
  }

  /** Every detail cell cleaned, excluded or not, in source order. */
  function CleanAll(cells: seq<string>): (ds: seq<string>)
    ensures |ds| == |cells|
  {
    if |cells| == 0 then [] else CleanAll(cells[..|cells| - 1]) + [CleanDetail(cells[|cells| - 1])]
  }

  /** A detail survives exactly when it is the cleaned text of some cell and mentions no
      excluded phrase. */
  lemma {:induction false} CleanDetailsMembers(cells: seq<string>, d: string)
    ensures d in CleanDetails(cells) <==> !Excluded(d) && d in CleanAll(cells)
  {
    if |cells| > 0 {
      CleanDetailsMembers(cells[..|cells| - 1], d);
    }
  }

  /** The filter keeps source order: cleaning two runs of cells is cleaning each in turn. */
  lemma {:induction false} CleanDetailsAppend(a: seq<string>, b: seq<string>)
    ensures CleanDetails(a + b) == CleanDetails(a) + CleanDetails(b)
  {
    if |b| > 0 {
      var b' := b[..|b| - 1];
      assert (a + b)[..|a + b| - 1] == a + b';
      CleanDetailsAppend(a, b');
    } else {
      assert a + b == a;
    }
  }

  /** What `extract_traffic_info` returns besides `None`. */
  datatype TrafficInfo = TrafficInfo(lat: string, lon: string, details: seq<string>)

  /** `extract_traffic_info` on the page text and the contents of its `colspan="6"` cells. */
  function TrafficInfoOf(page: string, detailCells: seq<string>): (r: Option<TrafficInfo>)
    ensures r.None? <==> forall k :: 0 <= k < |FindLatLons(page, 0)| ==> !Precise(FindLatLons(page, 0)[k])
    ensures r.Some? ==> r.value.details == CleanDetails(detailCells)
    ensures r.Some? ==> FirstPreciseIndex(FindLatLons(page, 0)) < |FindLatLons(page, 0)|
    ensures r.Some? ==> LatLon(r.value.lat, r.value.lon) == FindLatLons(page, 0)[FirstPreciseIndex(FindLatLons(page, 0))]
  {
    var ms := FindLatLons(page, 0);
    var first := FirstPrecise(ms);
    if first.None? then None
    else
      assert !forall k :: 0 <= k < |ms| ==> !Precise(ms[k]);
      Some(TrafficInfo(first.value.lat, first.value.lon, CleanDetails(detailCells)))
  }

  /** `extract_traffic_info`: details are collected first; then the scan returns at the
      first pair with six fractional digits in both parts. */
  method ExtractTrafficInfo(page: string, detailCells: seq<string>) returns (r: Option<TrafficInfo>)
    ensures r == TrafficInfoOf(page, detailCells)
  {
    var matches := FindLatLons(page, 0);
    var details := [];
    for i := 0 to |detailCells|
      invariant details == CleanDetails(detailCells[..i])
    {
      assert detailCells[..i + 1][..i] == detailCells[..i];
      var cleanDetail := CleanDetail(detailCells[i]);
      if !Excluded(cleanDetail) {
        details := details + [cleanDetail];
      }
    }
    assert detailCells[..|detailCells|] == detailCells;
    for k := 0 to |matches|
      invariant forall j :: 0 <= j < k ==> !Precise(matches[j])
    {
      if Precise(matches[k]) {
        FirstPreciseIsFirst(matches, k);
        return Some(TrafficInfo(matches[k].lat, matches[k].lon, details));
      }
    }
    return None;
  }

  /** The first precise pair is the one at the first precise index. */
  lemma FirstPreciseIsFirst(ms: seq<LatLon>, k: nat)
    requires k < |ms| && Precise(ms[k]) && NonePreciseBefore(ms, k)
    ensures FirstPrecise(ms) == Some(ms[k])
  {
    var k' := FirstPreciseIndex(ms);
    assert k' == k;
  }

  /** The coordinate record: the two numerals and the details. */
  function InfoRecord(info: TrafficInfo): (r: Record)
    ensures r.Keys == {"Latitude", "Longitude", "Details"}
  {
    map["Latitude" := Number(info.lat), "Longitude" := Number(info.lon), "Details" := TextList(info.details)]
  }

  // ---------------------------------------------------------------- get_coordinates

  /** What the reverse geocoder does: raise, find nothing, or return an address. */
  datatype Geocode = GeoRaised | NoAddress | Address(fields: map<string, string>)

  /** What `get_coordinates` yields: an escaping exception, `None`, or the record. */
  datatype Coords = CoordsRaised | NoCoords | CoordsData(record: Record)

  /** `dict.get(key, "N/A")`. */
  function GetOrNA(m: map<string, string>, key: string): (v: string)
    ensures key in m ==> v == m[key]
    ensures key !in m ==> v == "N/A"
  {
    if key in m then m[key] else "N/A"
  }

  /** `get_coordinates` from the first page (`None` when its request failed), the posted
      page with its detail cells (`None` when that request failed), and the geocoder. */
  function GetCoordinates(firstPage: Option<string>, secondPage: Option<(string, seq<string>)>, geo: Geocode): (c: Coords)
    ensures c.CoordsData? ==> "Latitude" in c.record && "Longitude" in c.record && "Details" in c.record
    ensures c.CoordsData? ==> c.record.Keys <= {"Latitude", "Longitude", "Details", "Neighborhood", "City"}
    ensures firstPage.None? || secondPage.None? ==> c == NoCoords
    ensures firstPage.Some? && GetViewstate(firstPage.value).None? ==> c == NoCoords
  {
    if firstPage.None? then NoCoords
    else if GetViewstate(firstPage.value).None? then NoCoords
    else if secondPage.None? then NoCoords
    else match TrafficInfoOf(secondPage.value.0, secondPage.value.1)
      case None => NoCoords
      case Some(info) =>
        var r := InfoRecord(info);
        match geo
        case GeoRaised => CoordsRaised
        case NoAddress => CoordsData(r)
        case Address(a) =>
          if a == map[] then CoordsData(r)
          else CoordsData(r["Neighborhood" := Text(GetOrNA(a, "neighbourhood"))]["City" := Text(GetOrNA(a, "city"))])
  }

  // ---------------------------------------------------------------- get_merged_data

  /** What `get_merged_data` yields: an escaping exception, `None`, or the merged record. */
  datatype Merged = FetchRaised | NoData | Data(record: Record)

  /** `get_merged_data`: drop `"Area"` from the row, then `{**row, **coordinates}`. */
  function GetMergedData(table: Table, coords: Coords): (m: Merged)
    ensures table.MediaLog? ==> m == NoData
    ensures table.TableRaised? ==> m == FetchRaised
    ensures table.Row? && coords == NoCoords ==> m == NoData
    ensures m.Data? ==> table.Row? && coords.CoordsData?
    ensures m.Data? ==> m.record.Keys == (table.fields.Keys - {"Area"}) + coords.record.Keys
    ensures m.Data? ==> forall k :: k in coords.record ==> m.record[k] == coords.record[k]
    ensures m.Data? ==> forall k :: k in table.fields && k !in coords.record && k != "Area" ==>
              m.record[k] == table.fields[k]
  {
    match table
    case TableRaised => FetchRaised
    case MediaLog => NoData
    case Row(fields) =>
      var row := fields - {"Area"};
      match coords
      case CoordsRaised => FetchRaised
      case NoCoords => NoData
      case CoordsData(c) => if c == map[] then NoData else Data(row + c)
  }

  /** A merged record built from scraped coordinates has no `"Area"` key. */
  lemma MergedHasNoArea(table: Table, firstPage: Option<string>, secondPage: Option<(string, seq<string>)>, geo: Geocode)
    ensures var m := GetMergedData(table, GetCoordinates(firstPage, secondPage, geo));
      m.Data? ==> "Area" !in m.record
  {
  }
}

=== FILE: stats.dfy ===
/** The analytics snapshot both dashboard revisions keep: a total, two
    `defaultdict(int)` counters (which iterate in insertion order), and the
    latest incident time. */
module Stats {
  import opened Wrappers

  /** A `defaultdict(int)` used as a counter: its keys in insertion order and their counts. */
  datatype Counter<K> = Counter(keys: seq<K>, counts: map<K, nat>)

  predicate Distinct<K(==,!new)>(s: seq<K>) {
    forall i, j :: 0 <= i < j < |s| ==> s[i] != s[j]
  }

  /** Every key once, in the order it was first incremented, each with a positive count. */
  predicate Valid<K(==,!new)>(c: Counter<K>) {
    && Distinct(c.keys)
    && (forall k :: k in c.counts ==> k in c.keys)
    && (forall i :: 0 <= i < |c.keys| ==> c.keys[i] in c.counts)
    && (forall k :: k in c.counts ==> c.counts[k] >= 1)
  }

  function EmptyCounter<K(==,!new)>(): (c: Counter<K>)
    ensures Valid(c) && c.keys == []
  {
    Counter([], map[])
  }

  /** `counter[k]` without inserting `k`. */
  function Count<K(==,!new)>(c: Counter<K>, k: K): nat {
    if k in c.counts then c.counts[k] else 0
  }

  /** `counter[k] += 1`: a new key goes to the end of the iteration order. */
  function Increment<K(==,!new)>(c: Counter<K>, k: K): (r: Counter<K>)
    requires Valid(c)
    ensures Valid(r)
    ensures Count(r, k) == Count(c, k) + 1
    ensures forall k' :: k' != k ==> Count(r, k') == Count(c, k')
    ensures k in c.counts ==> r.keys == c.keys
    ensures k !in c.counts ==> r.keys == c.keys + [k]
  {
    if k in c.counts then Counter(c.keys, c.counts[k := c.counts[k] + 1])
    else Counter(c.keys + [k], c.counts[k := 1])
  }

  /** The sum of the counts of `keys`. */
  function SumOver<K(==,!new)>(keys: seq<K>, counts: map<K, nat>): nat
    requires forall i :: 0 <= i < |keys| ==> keys[i] in counts
  {
    if |keys| == 0 then 0 else SumOver(keys[..|keys| - 1], counts) + counts[keys[|keys| - 1]]
  }

  /** `sum(counter.values())`. */
  function Total<K(==,!new)>(c: Counter<K>): nat
    requires Valid(c)
  {
    SumOver(c.keys, c.counts)
  }

  lemma {:induction false} SumOverIgnoresOthers<K(!new)>(keys: seq<K>, counts: map<K, nat>, k: K, v: nat)
    requires forall i :: 0 <= i < |keys| ==> keys[i] in counts && keys[i] != k
    ensures SumOver(keys, counts[k := v]) == SumOver(keys, counts)
  {
    if |keys| > 0 {
      SumOverIgnoresOthers(keys[..|keys| - 1], counts, k, v);
    }
  }

  lemma {:induction false} SumOverBumped<K(!new)>(keys: seq<K>, counts: map<K, nat>, k: K)
    requires Distinct(keys) && k in keys
    requires forall i :: 0 <= i < |keys| ==> keys[i] in counts
    ensures SumOver(keys, counts[k := counts[k] + 1]) == SumOver(keys, counts) + 1
  {
    var n := |keys|;
    var front := keys[..n - 1];
    if keys[n - 1] == k {
      SumOverIgnoresOthers(front, counts, k, counts[k] + 1);
    } else {
      assert k in front by {
        var i :| 0 <= i < n && keys[i] == k;
        assert front[i] == k;
      }
      SumOverBumped(front, counts, k);
    }
  }

  /** Incrementing a counter adds one to the sum of its counts. */
  lemma IncrementTotal<K(!new)>(c: Counter<K>, k: K)
    requires Valid(c)
    ensures Total(Increment(c, k)) == Total(c) + 1
  {
    if k in c.counts {
      SumOverBumped(c.keys, c.counts, k);
    } else {
      var r := Increment(c, k);
      assert r.keys[..|r.keys| - 1] == c.keys;
      SumOverIgnoresOthers(c.keys, c.counts, k, 1);
    }
  }

  /** Python's `max(keys, key=counts.get)`: the first key, in iteration order,
      whose count no other key exceeds. */
  function Best<K(==,!new)>(keys: seq<K>, counts: map<K, nat>): (b: K)
    requires |keys| > 0
    requires forall i :: 0 <= i < |keys| ==> keys[i] in counts
    ensures b in counts
    ensures exists i :: 0 <= i < |keys| && keys[i] == b
              && forall j :: 0 <= j < i ==> counts[keys[j]] < counts[b]
    ensures forall j :: 0 <= j < |keys| ==> counts[keys[j]] <= counts[b]
  {
    var n := |keys|;
    if n == 1 then keys[0]
    else
      var b := Best(keys[..n - 1], counts);
      if counts[keys[n - 1]] > counts[b] then keys[n - 1] else b
  }

  /** `max(counter, key=counter.get, default=None)`. */
  function MostFrequent<K(==,!new)>(c: Counter<K>): (r: Option<K>)
    requires Valid(c)
    ensures r.None? <==> c.keys == []
    ensures r.Some? ==> r.value in c.counts
    ensures r.Some? ==> forall k :: k in c.counts ==> Count(c, k) <= Count(c, r.value)
  {
    if |c.keys| == 0 then None
    else
      var b := Best(c.keys, c.counts);
      assert forall k :: k in c.counts ==> exists j :: 0 <= j < |c.keys| && c.keys[j] == k;
      Some(b)
  }

  /** The most-frequent-location label: the most frequent key, or `"N/A"` for an empty counter. */
  function MostFrequentLabel(c: Counter<string>): (s: string)
    requires Valid(c)
    ensures c.keys == [] ==> s == "N/A"
    ensures c.keys != [] ==> s in c.counts && forall k :: k in c.counts ==> Count(c, k) <= Count(c, s)
  {
    match MostFrequent(c)
    case None => "N/A"
    case Some(k) => k
  }

  /** The `analytics_data` dictionary (its severity counter is never written and is left out). */
  datatype Snapshot = Snapshot(total: nat, perHour: Counter<nat>, locations: Counter<string>, last: Option<string>)

  predicate ValidSnapshot(s: Snapshot) {
    Valid(s.perHour) && Valid(s.locations)
  }

  /** Every counter empty, no last time, the given total. */
  function Reset(total: nat): (s: Snapshot)
    ensures ValidSnapshot(s) && s.total == total && s.last == None
    ensures s.perHour.keys == [] && s.locations.keys == []
  {
    Snapshot(total, EmptyCounter(), EmptyCounter(), None)
  }

  /** The last-incident-time label: the time when it is truthy, `"N/A"` otherwise. */
  function LastTimeLabel(last: Option<string>): (s: string)
    ensures last.Some? && last.value != "" ==> s == last.value
    ensures last.None? || last.value == "" ==> s == "N/A"
  {
    if last.Some? && last.value != "" then last.value else "N/A"
  }
}

=== FILE: strings.dfy ===
/** Character classes, decimal numerals, `str.strip`, substring search and
    Python's code-point string ordering, as the rest of the model uses them. */
module Strings {

  /** ASCII decimal digit (Python's `\d` restricted to ASCII). */
  predicate IsDigit(c: char) {
    '0' <= c <= '9'
  }

  /** ASCII whitespace as Python's `\s` and `str.strip()` see it: the six C whitespace
      characters and the separators `\x1c` to `\x1f`. */
  predicate IsSpace(c: char) {
    c == ' ' || c == '\t' || c == '\n' || c == '\r' || c == '\U{000B}' || c == '\U{000C}'
      || ('\U{001C}' <= c <= '\U{001F}')
  }

  predicate AllDigits(s: string) {
    forall i :: 0 <= i < |s| ==> IsDigit(s[i])
  }

  function DigitChar(d: nat): (c: char)
    requires d < 10
    ensures IsDigit(c)
  {
    ['0', '1', '2', '3', '4', '5', '6', '7', '8', '9'][d]
  }

  function DigitOf(c: char): (d: nat)
    requires IsDigit(c)
    ensures d < 10 && DigitChar(d) == c
  {
    (c as int - '0' as int) as nat
  }

  /** The value of a string of decimal digits, most significant first. */
  function DigitsValue(s: string): nat
    requires AllDigits(s)
  {
    if |s| == 0 then 0 else DigitsValue(s[..|s| - 1]) * 10 + DigitOf(s[|s| - 1])
  }

  /** Python's `str(n)` for a natural number. */
  function NatToString(n: nat): (s: string)
    ensures |s| > 0 && AllDigits(s)
    ensures s[0] != '0' || s == "0"
  {
    if n < 10 then [DigitChar(n)] else NatToString(n / 10) + [DigitChar(n % 10)]
  }

  /** Python's `str(i)` for an integer. */
  function IntToString(i: int): (s: string)
    ensures |s| > 0
    ensures i >= 0 ==> s == NatToString(i)
    ensures i < 0 ==> s == "-" + NatToString(-i)
  {
    if i < 0 then "-" + NatToString(-i) else NatToString(i)
  }

  /** Reading back the numeral of `n` gives `n`. */
  lemma {:induction false} NatToStringValue(n: nat)
    ensures DigitsValue(NatToString(n)) == n
  {
    var s := NatToString(n);
    if n >= 10 {
      NatToStringValue(n / 10);
      assert s[..|s| - 1] == NatToString(n / 10);
    }
  }

  /** Distinct numbers have distinct numerals. */
  lemma NatToStringInjective(m: nat, n: nat)
    ensures NatToString(m) == NatToString(n) ==> m == n
  {
    NatToStringValue(m);
    NatToStringValue(n);
  }

  function Pow10(w: nat): (p: nat)
    ensures p >= 1
  {
    if w == 0 then 1 else 10 * Pow10(w - 1)
  }

  /** The last `w` decimal digits of `n`, zero-padded (`f"{n:0{w}d}"` for `n < 10^w`). */
  function Pad(n: nat, w: nat): (s: string)
    ensures |s| == w && AllDigits(s)
  {
    if w == 0 then [] else Pad(n / 10, w - 1) + [DigitChar(n % 10)]
  }

  lemma {:induction false} PadValue(n: nat, w: nat)
    requires n < Pow10(w)
    ensures DigitsValue(Pad(n, w)) == n
  {
    if w > 0 {
      var s := Pad(n, w);
      assert s[..|s| - 1] == Pad(n / 10, w - 1);
      PadValue(n / 10, w - 1);
    }
  }

  /** The index of the first non-whitespace character at or after `i`. */
  function SkipSpaces(s: string, i: nat): (j: nat)
    requires i <= |s|
    ensures i <= j <= |s|
    ensures forall k :: i <= k < j ==> IsSpace(s[k])
    ensures j == |s| || !IsSpace(s[j])
    decreases |s| - i
  {
    if i == |s| || !IsSpace(s[i]) then i else SkipSpaces(s, i + 1)
  }

  /** The end of the whitespace-free prefix of `s[..j]` seen from the right. */
  function TrimEnd(s: string, j: nat): (e: nat)
    requires j <= |s|
    ensures e <= j
    ensures forall k :: e <= k < j ==> IsSpace(s[k])
    ensures e == 0 || !IsSpace(s[e - 1])
  {
    if j == 0 || !IsSpace(s[j - 1]) then j else TrimEnd(s, j - 1)
  }

  /** Python's `s.strip()` (ASCII whitespace). */
  function Strip(s: string): (r: string)
    ensures |r| <= |s|
    ensures r == [] || (!IsSpace(r[0]) && !IsSpace(r[|r| - 1]))
    ensures exists i, j :: 0 <= i <= j <= |s| && r == s[i..j]
              && (forall k :: 0 <= k < i ==> IsSpace(s[k]))
              && (forall k :: j <= k < |s| ==> IsSpace(s[k]))
  {
    var i := SkipSpaces(s, 0);
    var j := TrimEnd(s, |s|);
    if j <= i then
      assert forall k :: 0 <= k < |s| ==> IsSpace(s[k]) by {
        forall k | 0 <= k < |s| ensures IsSpace(s[k]) {
          if k >= j && k >= i { } else if k < i { } else { }
        }
      }
      assert s[0..0] == [];
      []
    else
      s[i..j]
  }

  /** `sub` occurs in `s` at index `i`. */
  predicate OccursAt(s: string, sub: string, i: nat) {
    i + |sub| <= |s| && s[i..i + |sub|] == sub
  }

  /** Python's `sub in s`. */
  function Contains(s: string, sub: string): (b: bool)
    ensures b <==> exists i :: 0 <= i <= |s| && OccursAt(s, sub, i)
  {
    ContainsFrom(s, sub, 0)
  }

  function ContainsFrom(s: string, sub: string, i: nat): (b: bool)
    requires i <= |s|
    ensures b <==> exists k :: i <= k <= |s| && OccursAt(s, sub, k)
    decreases |s| - i
  {
    if OccursAt(s, sub, i) then true
    else if i == |s| then false
    else ContainsFrom(s, sub, i + 1)
  }

  /** Python's `a < b` on strings: lexicographic by code point. */
  predicate LexLess(a: string, b: string)
  {
    if |a| == 0 then |b| > 0
    else if |b| == 0 then false
    else if a[0] < b[0] then true
    else if a[0] == b[0] then LexLess(a[1..], b[1..])
    else false
  }

  lemma {:induction false} LexLessIrreflexive(a: string)
    ensures !LexLess(a, a)
  {
    if |a| > 0 {
      LexLessIrreflexive(a[1..]);
    }
  }

  lemma {:induction false} LexLessAsymmetric(a: string, b: string)
    ensures LexLess(a, b) ==> !LexLess(b, a)
  {
    if |a| > 0 && |b| > 0 && a[0] == b[0] {
      LexLessAsymmetric(a[1..], b[1..]);
    }
  }

  lemma {:induction false} LexLessTransitive(a: string, b: string, c: string)
    requires LexLess(a, b) && LexLess(b, c)
    ensures LexLess(a, c)
  {
    if |a| > 0 && |b| > 0 && |c| > 0 && a[0] == b[0] && b[0] == c[0] {
      LexLessTransitive(a[1..], b[1..], c[1..]);
    }
  }

  lemma {:induction false} LexLessTotal(a: string, b: string)
    ensures a == b || LexLess(a, b) || LexLess(b, a)
  {
    if |a| > 0 && |b| > 0 && a[0] == b[0] {
      LexLessTotal(a[1..], b[1..]);
      if a[1..] == b[1..] {
        assert a == [a[0]] + a[1..] && b == [b[0]] + b[1..];
      }
    }
  }
}

=== FILE: time_parse.dfy ===
/** `parse_incident_time`: `datetime.strptime` tried with the full
    `"%Y-%m-%d %H:%M:%S"` format and then the clock-only `"%I:%M %p"` format.
    The grammar is the one `strptime` compiles the two formats to: greedy one- or
    two-digit fields (exactly four digits for the year), range checks including
    month lengths and leap years, format whitespace matching one or more
    whitespace characters, `AM`/`PM` in any letter case, and the whole string
    consumed. A space-padded day (`" 8"`), which `%d` also accepts, is read too. */
module TimeParse {
  import opened Wrappers
  import opened Strings

  /** A parsed `datetime` (fields as `strptime` fills them; defaults 1900-01-01 00:00:00). */
  datatype Stamp = Stamp(year: nat, month: nat, day: nat, hour: nat, minute: nat, second: nat)

  /** A numeric field read from the input: its value and the index after it. */
  datatype Num = Num(value: nat, end: nat)

  function DigitRun(s: string, i: nat, w: nat): (j: nat)
    requires i <= |s|
    ensures i <= j <= |s| && j <= i + w
    ensures forall k :: i <= k < j ==> IsDigit(s[k])
    ensures j < i + w && j < |s| ==> !IsDigit(s[j])
    decreases w
  {
    if w == 0 || i == |s| || !IsDigit(s[i]) then i else DigitRun(s, i + 1, w - 1)
  }

  /** A field of one to `w` digits starting at `i`, read greedily. */
  function Field(s: string, i: nat, w: nat): (r: Option<Num>)
    requires i <= |s|
    ensures r.Some? ==> i < r.value.end <= |s| && r.value.end <= i + w
  {
    var j := DigitRun(s, i, w);
    if j == i then None
    else
      assert AllDigits(s[i..j]);
      Some(Num(DigitsValue(s[i..j]), j))
  }

  /** `%d`: one or two digits, or a space followed by a digit from 1 to 9. */
  function DayField(s: string, i: nat): (r: Option<Num>)
    requires i <= |s|
    ensures r.Some? ==> i < r.value.end <= |s| && r.value.end <= i + 2
    ensures i < |s| && s[i] == ' ' ==>
      (r.Some? <==> i + 1 < |s| && '1' <= s[i + 1] <= '9')
      && (r.Some? ==> r.value == Num(DigitOf(s[i + 1]), i + 2))
    ensures i < |s| && IsDigit(s[i]) ==> r == Field(s, i, 2)
  {
    if i < |s| && s[i] == ' ' then
      if i + 1 < |s| && '1' <= s[i + 1] <= '9' then Some(Num(DigitOf(s[i + 1]), i + 2)) else None
    else Field(s, i, 2)
  }

  /** The literal character `c` at `i`. */
  function Char(s: string, i: nat, c: char): (r: Option<nat>)
    requires i <= |s|
    ensures r.Some? ==> i < |s| && s[i] == c && r.value == i + 1
  {
    if i < |s| && s[i] == c then Some(i + 1) else None
  }

  /** One or more whitespace characters at `i` (a space in a `strptime` format). */
  function Spaces(s: string, i: nat): (r: Option<nat>)
    requires i <= |s|
    ensures r.Some? ==> i < r.value <= |s|
  {
    var j := SkipSpaces(s, i);
    if j == i then None else Some(j)
  }

  /** `%p`: `AM` or `PM` in any letter case; yields whether it is `PM` and the index after it. */
  function Meridiem(s: string, i: nat): (r: Option<(bool, nat)>)
    requires i <= |s|
    ensures r.Some? ==> r.value.1 == i + 2 <= |s|
  {
    if i + 2 <= |s| && (s[i + 1] == 'M' || s[i + 1] == 'm') then
      if s[i] == 'A' || s[i] == 'a' then Some((false, i + 2))
      else if s[i] == 'P' || s[i] == 'p' then Some((true, i + 2))
      else None
    else None
  }

  predicate IsLeapYear(y: nat) {
    y % 4 == 0 && (y % 100 != 0 || y % 400 == 0)
  }

  function DaysInMonth(y: nat, m: nat): (d: nat)
    requires 1 <= m <= 12
    ensures 28 <= d <= 31
  {
    if m == 2 then (if IsLeapYear(y) then 29 else 28)
    else if m == 4 || m == 6 || m == 9 || m == 11 then 30
    else 31
  }

  /** The values `datetime` accepts. */
  predicate ValidStamp(st: Stamp) {
    && 1 <= st.year <= 9999
    && 1 <= st.month <= 12
    && 1 <= st.day <= DaysInMonth(st.year, st.month)
    && st.hour < 24 && st.minute < 60 && st.second < 60
  }

  /** `strptime(s, "%Y-%m-%d %H:%M:%S")`, `None` where it raises `ValueError`. */
  function ParseFull(s: string): (r: Option<Stamp>)
    ensures r.Some? ==> ValidStamp(r.value)
  {
    var y :- Field(s, 0, 4);
    var p1 :- Char(s, y.end, '-');
    var mo :- Field(s, p1, 2);
    var p2 :- Char(s, mo.end, '-');
    var d :- DayField(s, p2);
    var p3 :- Spaces(s, d.end);
    var h :- Field(s, p3, 2);
    var p4 :- Char(s, h.end, ':');
    var mi :- Field(s, p4, 2);
    var p5 :- Char(s, mi.end, ':');
    var se :- Field(s, p5, 2);
    var st := Stamp(y.value, mo.value, d.value, h.value, mi.value, se.value);
    if y.end == 4 && se.end == |s| && ValidStamp(st) then Some(st) else None
  }

  /** The 24-hour clock hour of `%I` hour `i` with `%p`. */
  function Hour24(i: nat, pm: bool): (h: nat)
    requires 1 <= i <= 12
    ensures h < 24
    ensures !pm ==> h == (if i == 12 then 0 else i)
    ensures pm ==> h == (if i == 12 then 12 else i + 12)
  {
    (i % 12) + (if pm then 12 else 0)
  }

  /** `strptime(s, "%I:%M %p")`, `None` where it raises `ValueError`. */
  function ParseClock12(s: string): (r: Option<Stamp>)
    ensures r.Some? ==> ValidStamp(r.value)
    ensures r.Some? ==> r.value.year == 1900 && r.value.month == 1 && r.value.day == 1 && r.value.second == 0
  {
    var h :- Field(s, 0, 2);
    var p1 :- Char(s, h.end, ':');
    var mi :- Field(s, p1, 2);
    var p2 :- Spaces(s, mi.end);
    var ap :- Meridiem(s, p2);
    if ap.1 == |s| && 1 <= h.value <= 12 && mi.value < 60 then
      Some(Stamp(1900, 1, 1, Hour24(h.value, ap.0), mi.value, 0))
    else None
  }

  /** `parse_incident_time`: the first format that parses wins; `None` when neither does. */
  function ParseIncidentTime(s: string): (r: Option<Stamp>)
    ensures r.Some? ==> r.value.hour < 24
    ensures ParseFull(s).Some? ==> r == ParseFull(s)
    ensures ParseFull(s).None? ==> r == ParseClock12(s)
  {
    match ParseFull(s)
    case Some(st) => Some(st)
    case None => ParseClock12(s)
  }

  predicate Parseable(s: string) {
    ParseIncidentTime(s).Some?
  }

  /** The hour `parse_incident_time` yields for a parseable string. */
  function HourOf(s: string): (h: nat)
    requires Parseable(s)
    ensures h < 24
  {
    ParseIncidentTime(s).value.hour
  }

  /** `dt.strftime("%Y-%m-%d %H:%M:%S")`. */
  function FormatFull(st: Stamp): (s: string)
    ensures |s| == 19
  {
    FormatDate(st) + " " + FormatTime(st)
  }

  /** The `%Y-%m-%d` part. */
  function FormatDate(st: Stamp): (s: string)
    ensures |s| == 10
  {
    Pad(st.year, 4) + "-" + Pad(st.month, 2) + "-" + Pad(st.day, 2)
  }

  /** The `%H:%M:%S` part. */
  function FormatTime(st: Stamp): (s: string)
    ensures |s| == 8
  {
    Pad(st.hour, 2) + ":" + Pad(st.minute, 2) + ":" + Pad(st.second, 2)
  }

  /** `strftime("%I:%M %p")` of a time of day. */
  function FormatClock12(hour: nat, minute: nat): (s: string)
    requires hour < 24 && minute < 60
    ensures |s| == 8
  {
    Pad(if hour % 12 == 0 then 12 else hour % 12, 2) + ":" + Pad(minute, 2) + " "
      + (if hour < 12 then "AM" else "PM")
  }

  lemma {:induction false} DigitRunOverDigits(s: string, i: nat, w: nat)
    requires i + w <= |s|
    requires forall k :: i <= k < i + w ==> IsDigit(s[k])
    ensures DigitRun(s, i, w) == i + w
    decreases w
  {
    if w > 0 {
      DigitRunOverDigits(s, i + 1, w - 1);
    }
  }

  /** A zero-padded field of exactly `w` digits reads back as its value. */
  lemma FieldOfPad(s: string, i: nat, n: nat, w: nat)
    requires 1 <= w && i + w <= |s| && n < Pow10(w)
    requires s[i..i + w] == Pad(n, w)
    ensures Field(s, i, w) == Some(Num(n, i + w))
  {
    assert forall k :: i <= k < i + w ==> s[k] == Pad(n, w)[k - i];
    DigitRunOverDigits(s, i, w);
    PadValue(n, w);
  }

  lemma DateShape(st: Stamp)
    ensures var s := FormatDate(st);
      && s[0..4] == Pad(st.year, 4) && s[5..7] == Pad(st.month, 2) && s[8..10] == Pad(st.day, 2)
      && s[4] == '-' && s[7] == '-'
  {
  }

  lemma TimeShape(st: Stamp)
    ensures var s := FormatTime(st);
      && s[0..2] == Pad(st.hour, 2) && s[3..5] == Pad(st.minute, 2) && s[6..8] == Pad(st.second, 2)
      && s[2] == ':' && s[5] == ':'
  {
  }

  /** Where the fields of a formatted full timestamp sit. */
  lemma FullShape(st: Stamp)
    ensures var s := FormatFull(st);
      && s[0..4] == Pad(st.year, 4) && s[5..7] == Pad(st.month, 2) && s[8..10] == Pad(st.day, 2)
      && s[11..13] == Pad(st.hour, 2) && s[14..16] == Pad(st.minute, 2) && s[17..19] == Pad(st.second, 2)
      && s[4] == '-' && s[7] == '-' && s[10] == ' ' && s[13] == ':' && s[16] == ':'
  {
    var s := FormatFull(st);
    var d, t := FormatDate(st), FormatTime(st);
    DateShape(st);
    TimeShape(st);
    assert s[..10] == d;
    assert s[11..] == t;
    assert s[11..13] == t[0..2] && s[14..16] == t[3..5] && s[17..19] == t[6..8];
  }

  /** Parsing a formatted full timestamp gives it back. */
  lemma FullRoundTrip(st: Stamp)
    requires ValidStamp(st)
    ensures ParseFull(FormatFull(st)) == Some(st)
    ensures ParseIncidentTime(FormatFull(st)) == Some(st)
  {
    var s := FormatFull(st);
    assert Pow10(2) == 100 && Pow10(4) == 10000;
    FullShape(st);
    FieldOfPad(s, 0, st.year, 4);
    FieldOfPad(s, 5, st.month, 2);
    FieldOfPad(s, 8, st.day, 2);
    FieldOfPad(s, 11, st.hour, 2);
    FieldOfPad(s, 14, st.minute, 2);
    FieldOfPad(s, 17, st.second, 2);
    assert IsDigit(s[11]);
    assert SkipSpaces(s, 11) == 11;
    assert Spaces(s, 10) == Some(11);
  }

  /** A timestamp whose day of 1 to 9 is padded with a space rather than a zero. */
  function FormatSpacedDay(st: Stamp): (s: string)
    requires 1 <= st.day <= 9
    ensures |s| == 19
  {
    Pad(st.year, 4) + "-" + Pad(st.month, 2) + "- " + [DigitChar(st.day)] + " " + FormatTime(st)
  }

  lemma SpacedDayShape(st: Stamp)
    requires 1 <= st.day <= 9
    ensures var s := FormatSpacedDay(st);
      && s[0..4] == Pad(st.year, 4) && s[5..7] == Pad(st.month, 2)
      && s[11..13] == Pad(st.hour, 2) && s[14..16] == Pad(st.minute, 2) && s[17..19] == Pad(st.second, 2)
      && s[4] == '-' && s[7] == '-' && s[8] == ' ' && s[9] == DigitChar(st.day) && s[10] == ' '
      && s[13] == ':' && s[16] == ':'
  {
    var s := FormatSpacedDay(st);
    var t := FormatTime(st);
    TimeShape(st);
    assert s[11..] == t;
    assert s[11..13] == t[0..2] && s[14..16] == t[3..5] && s[17..19] == t[6..8];
  }

  /** `%d` also takes a space-padded day, so a timestamp written with one parses back,
      both alone and through `parse_incident_time`. */
  lemma SpacedDayRoundTrip(st: Stamp)
    requires ValidStamp(st) && st.day <= 9
    ensures ParseFull(FormatSpacedDay(st)) == Some(st)
    ensures ParseIncidentTime(FormatSpacedDay(st)) == Some(st)
  {
    var s := FormatSpacedDay(st);
    assert Pow10(2) == 100 && Pow10(4) == 10000;
    SpacedDayShape(st);
    FieldOfPad(s, 0, st.year, 4);
    FieldOfPad(s, 5, st.month, 2);
    assert DigitOf(s[9]) == st.day;
    assert DayField(s, 8) == Some(Num(st.day, 10));
    FieldOfPad(s, 11, st.hour, 2);
    FieldOfPad(s, 14, st.minute, 2);
    FieldOfPad(s, 17, st.second, 2);
    assert IsDigit(s[11]);
    assert SkipSpaces(s, 11) == 11;
    assert Spaces(s, 10) == Some(11);
  }

  /** Where the fields of a formatted 12-hour clock time sit. */
  lemma Clock12Shape(hour: nat, minute: nat)
    requires hour < 24 && minute < 60
    ensures var s := FormatClock12(hour, minute);
      && s[0..2] == Pad(if hour % 12 == 0 then 12 else hour % 12, 2) && s[3..5] == Pad(minute, 2)
      && s[2] == ':' && s[5] == ' ' && (s[6] == 'A' || s[6] == 'P') && s[7] == 'M'
      && (s[6] == 'P' <==> hour >= 12)
  {
  }

  /** A 12-hour clock time is not a full timestamp: the year field stops at the colon. */
  lemma Clock12NotFull(hour: nat, minute: nat)
    requires hour < 24 && minute < 60
    ensures ParseFull(FormatClock12(hour, minute)) == None
  {
    var s := FormatClock12(hour, minute);
    var i := if hour % 12 == 0 then 12 else hour % 12;
    assert Pow10(2) == 100;
    Clock12Shape(hour, minute);
    FieldOfPad(s, 0, i, 2);
    assert DigitRun(s, 0, 4) == 2;
  }

  /** The clock-only format reads a formatted 12-hour clock time back. */
  lemma Clock12Parses(hour: nat, minute: nat)
    requires hour < 24 && minute < 60
    ensures ParseClock12(FormatClock12(hour, minute)) == Some(Stamp(1900, 1, 1, hour, minute, 0))
  {
    var s := FormatClock12(hour, minute);
    var i := if hour % 12 == 0 then 12 else hour % 12;
    assert Pow10(2) == 100;
    Clock12Shape(hour, minute);
    FieldOfPad(s, 0, i, 2);
    FieldOfPad(s, 3, minute, 2);
    assert SkipSpaces(s, 6) == 6;
    assert Spaces(s, 5) == Some(6);
  }

  /** Parsing a formatted 12-hour clock time gives back its 24-hour hour and
      minute on 1900-01-01: 12 AM is hour 0, 12 PM is hour 12. */
  lemma Clock12RoundTrip(hour: nat, minute: nat)
    requires hour < 24 && minute < 60
    ensures ParseIncidentTime(FormatClock12(hour, minute)) == Some(Stamp(1900, 1, 1, hour, minute, 0))
  {
    Clock12NotFull(hour, minute);
    Clock12Parses(hour, minute);
  }
}

=== FILE: wrappers.dfy ===
/** Python's optional values (`None` or a value), usable with `:-`. */
module Wrappers {

  datatype Option<+T> = None | Some(value: T) {

    predicate IsFailure() {
      None?
    }

    function PropagateFailure<U>(): Option<U>
      requires None?
    {
      None
    }

    function Extract(): T
      requires Some?
    {
      value
    }
  }
}
